=== FILE: README.md ===
# QSMxT pipeline core, modelled in Dafny

QSMxT turns the phase and magnitude images of a BIDS dataset into
quantitative susceptibility maps. This project models the deterministic
decisions around that work and proves what they promise:

- **Option normalisation** (`RunOptions`). `process_args` picks the masking
  default per QSM algorithm. It clears the BET add-on when the masking is
  itself BET-based. It derives two-pass/single-pass, keeps inhomogeneity
  correction only where magnitude masking can use it, and sets the process
  and TGV-QSM thread counts. The `--masking_threshold` validator is here too.
- **Run planning** (`RunPlanning`). The run labels of a session come from the
  phase file names. Each run has rules that skip it, or that adjust its
  options according to which magnitude, JSON and mask files were found.
- **Axial resampling shell** (`AxialAffine`, `AxialSampling`). The canonical
  axial affine is built from the magnitude image's voxel sizes, shape and
  axis signs. Around it sit:
  - the obliquity gate;
  - the `_resampled` output names;
  - which outputs exist: a mask or the literal "placeholder";
  - the fast path of `resample_like`.
- **Log bookkeeping** (`Logger`). It covers the numeric log levels and the
  in-memory record stream, which drops its oldest record once a cap is
  exceeded. It also covers the summary logged at the end of a run.

Supporting modules:

- `Wrappers` defines `Option` and `Result`. `Option` stands for a Python
  value that may be `None`, and for a few pure checks whose only failure is a
  Python exception (`Logger.LevelOf`, `AxialAffine.BroadcastMul`,
  `AxialAffine.BroadcastShape`). `Result` carries the value a computation
  returns or the exception it raises.
- `Text` models the Python string operations the code relies on: truthiness,
  `find`, `in`, slicing with negative bounds, `os.path.split(p)[1]`, `split`
  and `join`. Most have a characterising contract. `split` is pinned by its
  first piece, its piece count and the absence of the separator in every
  piece; `join` has none of its own, and `Text.JoinSplit` and
  `Text.JoinSplitTail` characterise the two together.
- `Ordering` models Python's string order and `sorted(set(...))`.

Voxel values, file systems and foreign libraries stay outside the model, as
parameters of the operations that use them:

- an image is its kind, shape, voxel sizes and affine;
- a loader (`string -> Volume`) stands for loading a file;
- a resampler function stands for nilearn's resampler;
- `abspath` is a function, because it depends on the working directory;
- the CPU count is a number the caller passes in.

Integers and reals are mathematical, which matches Python's unbounded `int`.
The affine arithmetic is exact instead of floating point.

The extension of a resampled file name is taken from the whole path, not
from the file name. A '.' in a directory name therefore puts a '/' into the
output name (`AxialSampling.DottedDirectoryLeaks`). The model keeps this
behaviour exactly as the code has it.

## Model

| member | source | states |
|---|---|---|
| RunOptions.ProcessArgs | run_2_qsm.py:514-540 | An explicit masking is kept; an absent or empty one becomes "phase-based" for TGV-QSM and "bet-firstecho" for NeXtQSM. The BET add-on is only ever cleared, and exactly when the masking contains "bet". Two-pass holds iff the masking lacks "bet" and no single pass was asked for, and single-pass is its negation. Inhomogeneity correction survives iff it was asked for and either the add-on is on or the masking lacks "phase-based". A non-zero process count is kept, otherwise the CPU count is used. Threads are 6 with a PBS account string, else min(6, processes). The other fields pass through, and the result satisfies `Consistent`. |
| RunOptions.ProcessArgsIdempotent | run_2_qsm.py:514-540 | Normalising the command line that reproduces already-normalised options gives the same options back. |
| RunOptions.TgvQsmDefaults | tests/run_test_qsm.py:177-192 | With no flags, TGV-QSM uses phase-based masking and runs two-pass. The BET add-on, inhomogeneity correction and existing masks are all off, and the process count is the CPU count. |
| RunOptions.NextQsmDefaults | tests/run_test_qsm.py:224-237 | With no flags, NeXtQSM uses BET masking on the first echo, so it runs single-pass with no two-pass, no add-on, no inhomogeneity correction and no existing masks. |
| RunOptions.SinglePassRequested | tests/run_test_qsm.py:273-287 | `--single_pass` with the default masking gives phase-based masking, single-pass and not two-pass. The add-on, inhomogeneity correction and existing masks are off. |
| RunOptions.InhomogeneityCorrectionWithBet | tests/run_test_qsm.py:298-312 | With BET masking, inhomogeneity correction is kept and the run is single-pass, not two-pass. The add-on and existing masks are off. |
| RunOptions.InhomogeneityCorrectionWithMagnitudeMasking | tests/run_test_qsm.py:323-337 | With magnitude-based masking, inhomogeneity correction is kept and the run stays two-pass, not single-pass. The add-on and existing masks are off. |
| RunOptions.InhomogeneityCorrectionWithPhaseMasking | tests/run_test_qsm.py:348-361 | With the default phase-based masking, inhomogeneity correction is dropped and the run stays two-pass, not single-pass. The add-on and existing masks are off. |
| RunOptions.AddBetRules | tests/run_test_qsm.py:374-411 | With `--add_bet` and the default masking, the add-on is kept, with phase-based masking, two-pass, no single pass, no inhomogeneity correction and no existing masks. With `--masking bet` as well, the add-on is dropped, with single-pass, no two-pass, no inhomogeneity correction and no existing masks. |
| RunOptions.BetweenZeroAndOne | run_2_qsm.py:416-419 | The validator accepts x iff 0 <= x <= 1, returning x unchanged. It fails with the offending value otherwise. |
| RunPlanning.RunLabel | run_2_qsm.py:79-82 | Every run label starts with "run-". |
| RunPlanning.NameLabel | run_2_qsm.py:80 | The label of a file name is "run-" followed by a slice of that name, so it always starts with "run-". `NameLabelBetween` and `NameLabelWithoutUnderscore` say which slice. |
| RunPlanning.NameLabelBetween | run_2_qsm.py:80 | When the file name has a "run-" tag followed later by '_', the label is "run-" plus exactly the text between the first "run-" and the next '_'. |
| RunPlanning.NameLabelWithoutUnderscore | run_2_qsm.py:80 | When no '_' follows the tag, `find` gives -1, so the slice drops the file name's last character from the label. |
| RunPlanning.SessionRuns | run_2_qsm.py:69-82 | There are no runs iff no phase file was found or some phase path lacks "run-". Otherwise the runs are strictly sorted (so distinct), and their set is exactly the set of the files' run labels. |
| RunPlanning.SessionRunsCanonical | run_2_qsm.py:79-82 | Any strictly sorted list of exactly the session's labels equals the computed run list, so `sorted(set(...))` has only one possible answer. |
| RunPlanning.TakeEchoes | run_2_qsm.py:98-107 | `[:num_echoes]` gives a prefix of the list. With no count it is the whole list, with a count n >= 0 it has min(n, length) entries, and a negative count drops that many from the end. |
| RunPlanning.Considered | run_2_qsm.py:97-107 | Each considered list is a leading part of the list found, cut to the echo count. Masks are considered only when existing masks were asked for. With no echo count every list is kept whole. |
| RunPlanning.ConsideredIdempotent | run_2_qsm.py:97-107 | With no echo count or a non-negative one, cutting the considered lists again leaves them as they are. A negative count drops that many more files from the end. |
| RunPlanning.MaskingHeaderNamesSource | run_2_qsm.py:151 | For any masking the command line admits, the header starts with "Predefined" iff masks are in use. Otherwise it starts with the masking itself. While masks are in use the header does not depend on the options. |
| RunPlanning.PerEcho | run_2_qsm.py:170 | A single mask becomes one copy per phase file. Any other mask list is used unchanged. |
| RunPlanning.MaskingHeader | run_2_qsm.py:151 | With no masks the header entry is the masking, plus " plus BET" when the add-on is on. With one mask it is "Predefined (one mask)", and with more it is "Predefined (multi-echo mask)". |
| RunPlanning.PlanRun | run_2_qsm.py:110-171 | A run is skipped iff it has no phase files or unequal JSON and phase counts. Missing but needed magnitude falls back on phase-based masking with the add-on and inhomogeneity correction cleared. Mismatched multiple masks are dropped, and a single mask is replicated once per phase file. Masks in use force single-pass and clear the add-on and inhomogeneity correction. The add-on, inhomogeneity correction and two-pass are only ever cleared. Single-pass may be set, and masking may become phase-based. No other field changes, and with no fallback and no masks the options are unchanged. Each warning is logged iff its check fires, in check order. Consistency is kept. The full list follows the table. |
| RunPlanning.PhaseBasedIsConsistent | run_2_qsm.py:116-120 | Falling back on phase-based masking (clearing the add-on and inhomogeneity correction) keeps normalised options consistent. |
| RunPlanning.PlannedOptionsConsistent | run_2_qsm.py:110-130 | The options of every run that goes ahead still satisfy the normalisation relations. |
| Ordering.SortedDistinct | run_2_qsm.py:79 | `sorted(set(xs))` is strictly sorted and has exactly the elements of xs. |
| Ordering.SortedUnique | run_2_qsm.py:79 | Two strictly sorted lists with the same elements are equal. |
| Text.Find | run_2_qsm.py:80 | `find` returns -1 or an index at or after the start where the substring occurs. No occurrence lies between the start and the returned index, and -1 means none at all. |
| Text.FindAgreesWithContains | run_2_qsm.py:74-80 | `find` succeeds exactly when `in` holds. |
| Text.Slice | run_2_qsm.py:80 | Slicing agrees with ordinary sub-sequences for in-range bounds, and a negative stop counts from the end. |
| Text.Basename | interfaces/nipype_interface_axialsampling.py:69 | `os.path.split(p)[1]` is the longest suffix of p without '/', and it is preceded by '/' when shorter than p. |
| Text.Split | interfaces/nipype_interface_axialsampling.py:69-71 | The first piece is the text before the first separator. There is exactly one piece iff the separator does not occur, and no piece contains it. |
| Text.JoinSplit | interfaces/nipype_interface_axialsampling.py:71 | Joining the pieces of a split with the same one-character separator gives the string back. |
| Text.JoinSplitTail | interfaces/nipype_interface_axialsampling.py:71-72 | Joining all pieces after the first gives the text after the first separator. |
| AxialAffine.BroadcastMul | interfaces/nipype_interface_axialsampling.py:12 | numpy's element-wise product of two vectors is defined iff the lengths agree or one is 1. Each entry multiplies the broadcast operands. |
| AxialAffine.BroadcastShape | interfaces/nipype_interface_axialsampling.py:21 | Two data shapes broadcast iff, aligned at their ends, every pair of dimensions agrees or has a 1. The result is as long as the longer shape, and each dimension is the one that is not 1 (or 1 when both are). |
| AxialAffine.BroadcastShapeSelf | interfaces/nipype_interface_axialsampling.py:21 | A shape broadcasts with itself to itself. |
| AxialAffine.BroadcastShapeCommutes | interfaces/nipype_interface_axialsampling.py:21 | Broadcasting gives the same outcome whichever operand comes first. |
| AxialAffine.MismatchedVolumes | interfaces/nipype_interface_axialsampling.py:21 | A 2x2x2 magnitude and a 3x3x3 phase do not broadcast. |
| AxialAffine.BaseAffine | interfaces/nipype_interface_axialsampling.py:10-16 | The base affine exists iff the voxel sizes and the shape each have 1 or 3 entries. Its diagonal entry i is zoom i times the sign of A[i][i], its other linear entries are 0, and its last row is (0,0,0,1). Its translation i is zoom i times shape i over 2, times minus the sign of A[i][i]. |
| AxialAffine.BaseAffineSignsOnly | interfaces/nipype_interface_axialsampling.py:10-16 | Two input affines whose diagonals have the same signs give the same base affine. |
| AxialAffine.BaseAffineCentres | interfaces/nipype_interface_axialsampling.py:12-16 | The base affine maps the voxel at half the data shape to the world origin. |
| AxialAffine.BaseAffineSpacing | interfaces/nipype_interface_axialsampling.py:14 | With a positive voxel size and a non-zero diagonal entry, the spacing is plus or minus the voxel size and points the way the input's axis does. |
| AxialAffine.BaseAffineFixedPoint | interfaces/nipype_interface_axialsampling.py:10-16 | With positive voxel sizes, the base affine of an image already on its base affine is that same affine. |
| AxialSampling.ResampleToAxial | interfaces/nipype_interface_axialsampling.py:8-45 | Resampling succeeds iff the base affine exists and the magnitude and phase data shapes broadcast together. The magnitude and phase outputs are both on the resampled real part's grid, and that real part carries the broadcast shape, the magnitude's voxel sizes and the phase's affine. A mask output exists iff a mask was given, and it is the mask resampled with nearest interpolation. |
| AxialSampling.SameShapeResamples | interfaces/nipype_interface_axialsampling.py:10-25 | When magnitude and phase have the same shape, resampling succeeds iff the base affine exists, and the outputs have the shape the resampler gives the real part in the magnitude's shape. |
| AxialSampling.AxialOutputsOnBaseAffine | interfaces/nipype_interface_axialsampling.py:31-43 | With a resampler that honours its target, magnitude, phase and mask all lie on the base affine. |
| AxialSampling.ResampledName | interfaces/nipype_interface_axialsampling.py:69-74 | The name is the file name's stem up to its first '.', then "_resampled.", then everything after the first '.' of the whole path. |
| AxialSampling.ResampledNameInsertsTag | interfaces/nipype_interface_axialsampling.py:69-74 | When no directory has a '.', the name is the file name with "_resampled" inserted before its first '.' ("_resampled." is appended when there is none), and it contains no '/'. |
| AxialSampling.DottedDirectoryLeaks | interfaces/nipype_interface_axialsampling.py:71-73 | When a directory of the path has a '.', the extension starts inside the directories, so the resampled name contains a '/'. |
| AxialSampling.ResampleFiles | interfaces/nipype_interface_axialsampling.py:47-88 | When the threshold is set and the obliquity norm is below it, the three input names come back and nothing is written. Otherwise the call fails iff `resample_to_axial` on the loaded images fails. On success the magnitude and phase that `resample_to_axial` returns are written, in that order, under their resampled names. The mask name is "placeholder" when no non-empty mask name was given; otherwise it is the mask's resampled name, and the mask is written resampled with nearest interpolation. |
| AxialSampling.ResampleFilesReturnsWhatItWrites | interfaces/nipype_interface_axialsampling.py:63-88 | A resampling call returns the paths of the files it wrote, in the order written. The placeholder stands for a mask it did not write. A skipping call writes nothing and returns its input names. |
| AxialSampling.SaveAxial | interfaces/nipype_interface_axialsampling.py:75-88 | The returned names, except a placeholder, are exactly the paths of the written files in order. Magnitude and phase are written under their names, in that order, and a resampled mask is written third. The returned mask name is "placeholder" when no mask was resampled and the mask's name otherwise. |
| AxialSampling.ResampleFilesGate | interfaces/nipype_interface_axialsampling.py:58-63 | A successful call writes nothing iff the gate skips resampling. |
| AxialSampling.NoThresholdAlwaysResamples | interfaces/nipype_interface_axialsampling.py:60 | An absent or zero threshold never skips. |
| AxialSampling.ResampleLike | interfaces/nipype_interface_axialsampling.py:91-101 | With equal affines the input name comes back and nothing is written. Otherwise one file is written under the resampled name, holding the input resampled to the reference's affine and shape with the given interpolation. |
| AxialSampling.ResampleLikeSettles | interfaces/nipype_interface_axialsampling.py:94-101 | With a resampler that honours its target, the written image has the reference's affine and shape. Running again on the output takes the fast path and returns the same name. |
| Logger.LevelOf | scripts/logger.py:4-10 | `LogLevel(v)` exists iff v is one of 50, 40, 30, 20, 10, 0. |
| Logger.LevelOfValue | scripts/logger.py:4-10 | Every level is recovered from its value, so no level is an alias of another. |
| Logger.LevelsDecrease | scripts/logger.py:4-10 | CRITICAL > ERROR > WARNING > INFO > DEBUG > NOTSET by value. |
| Logger.NewStream | scripts/logger.py:17-20 | A new stream is empty and keeps the given cap and echo flag. |
| Logger.NewStreamEmpty | scripts/logger.py:17-23 | Reading any index of a new stream fails. |
| Logger.Len | scripts/logger.py:25-26 | `len(stream)` is the number of records held. `Logger.LenBoundsIndexing` states what this means for indexing. |
| Logger.LenBoundsIndexing | scripts/logger.py:22-26 | Index `len` and index `-len - 1` are out of range. In a non-empty stream, index `len - 1` and index -1 both read the last record. |
| Logger.Get | scripts/logger.py:22-23 | Reading an index succeeds iff -len <= index < len. A non-negative index reads that item, and a negative one counts from the end. |
| Logger.Write | scripts/logger.py:28-35 | Without a cap the record is appended. With a cap that is exceeded, the oldest item is dropped from the appended list; with a cap that is not exceeded, the record is appended. A non-empty result ends with the record. A stream within a positive cap stays within it and is non-empty. |
| Logger.WriteGrows | scripts/logger.py:22-35 | Without a cap, len grows by one, index -1 reads the new record, and earlier indices read what they did before. |
| Logger.WriteKeepsEarlier | scripts/logger.py:29-35 | A write that does not exceed the cap leaves every earlier item in place. |
| Logger.Flush | scripts/logger.py:37-38 | Flushing leaves the stream exactly as it was: its items, cap and echo flag. |
| Logger.RecentStep | scripts/logger.py:34-35 | One capped write onto the m most recent records of xs leaves the m most recent records of xs plus the new record. |
| Logger.WriteAll | scripts/logger.py:28-35 | Writing a sequence of records keeps them all without a cap. With a positive cap, starting within it, it keeps exactly the m most recent. |
| Logger.MakeHandlers | scripts/logger.py:52-54 | The console, warnings and errors streams start empty and uncapped, and only the console echoes. |
| Logger.ShowWarningSummary | scripts/logger.py:92-96 | The "completed with warnings" message is logged iff the warnings stream is non-empty. The "Errors occurred" message is logged iff the errors stream is non-empty. Both are at INFO, nothing else is logged, and the warnings message comes first. |
| Logger.WrittenRecordIsSummarised | scripts/logger.py:28-96 | After a record is written to the warnings (or errors) stream, the summary holds the warnings (or errors) message, unless that stream's cap is negative. |
| Logger.QuietRunNoSummary | scripts/logger.py:92-96 | A logger with empty warnings and errors streams logs no summary. |

`RunPlanning.PlanRun` states these per-run rules:

- A run is skipped iff it has no phase files or its JSON and phase counts
  differ. It is skipped for missing phase files exactly in the first case.
- A planned run's files are aligned, and its phase, magnitude and JSON lists
  are the considered ones.
- When magnitude is needed but missing, masking falls back to "phase-based",
  with the add-on and inhomogeneity correction off, and a warning is logged.
  Otherwise masking is unchanged.
- Several masks whose count differs from the phase count are dropped, with a
  warning. A single mask is replicated once per phase file. Several masks that
  match are kept. No masks found means no masks used.
- While masks are in use, inhomogeneity correction, two-pass and the add-on
  are off and single-pass is on. With no masks, two-pass and single-pass are
  unchanged.
- Asking for masks and finding none logs a warning. Each of the three
  warnings is logged iff its check fires, in the order of the checks, and
  none twice.
- The add-on, inhomogeneity correction and two-pass are only ever cleared.
  Single-pass may be set, and masking may become "phase-based". No other
  field changes. When neither the fallback nor masks apply, the options are
  exactly the input options.
- Consistency of the options is preserved.
- The header entry is computed from the final options and masks.

## Left out

- Side effects are not modelled:
  - environment reading (`NCPUS`, `os.cpu_count()`), which becomes the `cpuCount` parameter of `RunOptions.ProcessArgs`;
  - the debug configuration calls (run_2_qsm.py:543-551);
  - printing to the console, including the echo of new records in `_StringStream.write`, which the stream only records as a flag.
- The file system: globbing and sorting each run's file lists, and building the glob patterns (run_2_qsm.py:68-69, 97-107). `RunPlanning.PlanRun` receives the lists as the sorted glob returns them.
- Log messages: the warnings a run logs are named values (`RunWarning`), not formatted text.
- Workflow construction: nipype workflow and node construction, the JSON header's other entries, reading echo times from JSON sidecars, and everything after the run's files are settled (run_2_qsm.py:133 onward, except lines 151 and 170).
- argparse itself. `RunOptions.QsmAlgorithm` has only the two values argparse admits, so the branch where no default masking is chosen cannot occur.
- The test-derived lemmas, from `RunOptions.TgvQsmDefaults` to `RunOptions.AddBetRules`, state every option assertion of their tests: masking, two-pass, single-pass, inhomogeneity correction, the add-on and existing masks. They do not state the other asserts. The BIDS and output paths are not restated, because paths are file-system work.
- The TGV-QSM thread assertion of tests/run_test_qsm.py:193 (and 217) is not stated. Its conditional applies the strict bound `< NCPUS` only when `NCPUS` is set. `RunOptions.ProcessArgs` states the threads the code computes instead: 6 with a PBS account string, else min(6, processes).
- RunOptions.BetweenZeroAndOne takes a real. It does not model the parse of the argument string (a parse failure also raises `ValueError`) or NaN, which the Python comparison lets through.
- The resampling numerics: interpolation, the cos/sin split into real and imaginary parts, hypot/atan2, rounding and the dtype casts (interfaces/nipype_interface_axialsampling.py:19-39). These are floating-point work in foreign libraries, so a volume has no voxel values and the resampler is a parameter.
- The obliquity angle and its norm (interfaces/nipype_interface_axialsampling.py:58-59). They are a parameter applied to the loaded magnitude affine.
- AxialAffine.BaseAffine computes over mathematical reals, not float64, so it makes no statement about rounding.
- Loading and saving images are a loader parameter and the list of saved files. `os.path.abspath` is a parameter too.
- AxialSampling.ResampleToAxial: the real part's voxel sizes are given as the magnitude header's; any change nibabel makes to them from the phase affine is not tracked, since the resampler is given the affine and shape. The imaginary part is not tracked: it has the real part's grid.
- AxialSampling.ResampleToAxial: the re-wrapped magnitude and phase take their shape, voxel sizes and affine from the resampled real part. The model does not track the other header fields the code copies over.
- The nipype interface classes that wrap `resample_files` and `resample_like` (interfaces/nipype_interface_axialsampling.py:104-153). They only forward arguments and results.
- The `logging` library's machinery, which is not visible here:
  - level names and handler/level filtering in `make_logger`;
  - the optional file handler;
  - `get_logger` and `show_log`.

  `Logger.ShowWarningSummary` returns the records it logs instead of dispatching them to handlers.

=== FILE: affine.dfy ===
/** The canonical axial affine the resampler targets: a diagonal voxel-to-
    world matrix with the magnitude image's voxel sizes, the signs of its
    affine's diagonal, and a translation that puts the centre of the volume
    at the world origin. The arithmetic is over mathematical reals, and
    numpy's element-wise products are modelled with their broadcasting rule,
    so shapes numpy rejects give an error instead of a matrix. */
module AxialAffine {
  import opened Wrappers

  /** A 4x4 affine, row by row. */
  type Matrix = m: seq<seq<real>> | |m| == 4 && forall i :: 0 <= i < 4 ==> |m[i]| == 4
    witness [[1.0, 0.0, 0.0, 0.0], [0.0, 1.0, 0.0, 0.0], [0.0, 0.0, 1.0, 0.0], [0.0, 0.0, 0.0, 1.0]]

  /** `np.sign`: -1, 0 or 1. */
  function Sign(x: real): (s: int)
    ensures s == -1 || s == 0 || s == 1
    ensures s == 1 <==> x > 0.0
    ensures s == -1 <==> x < 0.0
  {
    if x > 0.0 then 1 else if x < 0.0 then -1 else 0
  }

  /** Element `i` of an operand of a broadcast: a one-element vector stands
      for every index. */
  function At(v: seq<real>, i: nat): real
    requires |v| == 1 || i < |v|
  {
    if |v| == 1 then v[0] else v[i]
  }

  /** numpy's `a * b` on vectors: defined when the lengths agree or one of
      them is 1; `None` is the broadcasting error. */
  function BroadcastMul(a: seq<real>, b: seq<real>): (r: Option<seq<real>>)
    ensures r.Some? <==> |a| == |b| || |a| == 1 || |b| == 1
    ensures r.Some? ==> |r.value| == if |a| == 1 then |b| else |a|
    ensures r.Some? ==> forall i :: 0 <= i < |r.value| ==> r.value[i] == At(a, i) * At(b, i)
  {
    if |a| == |b| || |a| == 1 || |b| == 1 then
      var n := if |a| == 1 then |b| else |a|;
      Some(seq(n, i requires 0 <= i < n => At(a, i) * At(b, i)))
    else None
  }

  /** A vector of integers as reals, as numpy promotes a shape. */
  function Reals(v: seq<nat>): (r: seq<real>)
    ensures |r| == |v|
    ensures forall i :: 0 <= i < |v| ==> r[i] == v[i] as real
  {
    seq(|v|, i requires 0 <= i < |v| => v[i] as real)
  }

  /** The signs of the first three diagonal entries of an affine. */
  function DiagonalSigns(a: Matrix): (s: seq<real>)
    ensures |s| == 3
    ensures forall i :: 0 <= i < 3 ==> s[i] == Sign(a[i][i]) as real
  {
    [Sign(a[0][0]) as real, Sign(a[1][1]) as real, Sign(a[2][2]) as real]
  }

  function Negate(v: seq<real>): (r: seq<real>)
    ensures |r| == |v|
    ensures forall i :: 0 <= i < |v| ==> r[i] == -v[i]
  {
    seq(|v|, i requires 0 <= i < |v| => -v[i])
  }

  function Halve(v: seq<real>): (r: seq<real>)
    ensures |r| == |v|
    ensures forall i :: 0 <= i < |v| ==> r[i] == v[i] / 2.0
  {
    seq(|v|, i requires 0 <= i < |v| => v[i] / 2.0)
  }

  /** The affine with diagonal `d` and translation `t`. */
  function DiagonalAffine(d: seq<real>, t: seq<real>): (m: Matrix)
    requires |d| == 3 && |t| == 3
    ensures forall i :: 0 <= i < 3 ==> m[i][i] == d[i] && m[i][3] == t[i]
    ensures forall i, j :: 0 <= i < 3 && 0 <= j < 3 && i != j ==> m[i][j] == 0.0
    ensures m[3] == [0.0, 0.0, 0.0, 1.0]
  {
    [[d[0], 0.0, 0.0, t[0]],
     [0.0, d[1], 0.0, t[1]],
     [0.0, 0.0, d[2], t[2]],
     [0.0, 0.0, 0.0, 1.0]]
  }

  /** numpy's `ValueError` for operands that cannot be broadcast together. */
  datatype AffineError = BroadcastMismatch

  /** Dimension `k` of a shape counted from its end; numpy reads a shape
      that has run out as 1. */
  function FromEnd(s: seq<nat>, k: nat): nat {
    if k < |s| then s[|s| - 1 - k] else 1
  }

  /** Two dimensions broadcast together when they agree or one of them is 1. */
  predicate Compatible(x: nat, y: nat) {
    x == y || x == 1 || y == 1
  }

  /** The dimension two compatible dimensions broadcast to. */
  function Combined(x: nat, y: nat): nat {
    if x == 1 then y else x
  }

  /** The shape of an element-wise product of arrays shaped `a` and `b`:
      the shapes are aligned at their ends, and `None` is numpy's
      broadcasting error. */
  function BroadcastShape(a: seq<nat>, b: seq<nat>): (r: Option<seq<nat>>)
    ensures r.Some? <==> forall k :: 0 <= k < |a| && k < |b| ==> Compatible(FromEnd(a, k), FromEnd(b, k))
    ensures r.Some? ==> |r.value| == if |a| < |b| then |b| else |a|
    ensures r.Some? ==> forall k :: 0 <= k < |r.value| ==>
              FromEnd(r.value, k) == Combined(FromEnd(a, k), FromEnd(b, k))
    decreases |a|
  {
    if |a| == 0 then Some(b)
    else if |b| == 0 then Some(a)
    else
      var x, y := a[|a| - 1], b[|b| - 1];
      FromEndStep(a);
      FromEndStep(b);
      if !Compatible(x, y) then None
      else
        match BroadcastShape(a[..|a| - 1], b[..|b| - 1])
        case None =>
          IncompatibleShifts(a, b, a[..|a| - 1], b[..|b| - 1]);
          None
        case Some(rest) =>
          FromEndStep(rest + [Combined(x, y)]);
          assert (rest + [Combined(x, y)])[..|rest|] == rest;
          Some(rest + [Combined(x, y)])
  }

  /** Dropping a shape's last dimension shifts the others one place
      towards the end. */
  lemma FromEndStep(s: seq<nat>)
    requires |s| > 0
    ensures FromEnd(s, 0) == s[|s| - 1]
    ensures forall k: nat :: k > 0 ==> FromEnd(s, k) == FromEnd(s[..|s| - 1], k - 1)
  {
  }

  /** An incompatible pair of dimensions in the shapes without their last
      dimension is one in the whole shapes, one place further from the end. */
  lemma IncompatibleShifts(a: seq<nat>, b: seq<nat>, a0: seq<nat>, b0: seq<nat>)
    requires |a| > 0 && |b| > 0 && a0 == a[..|a| - 1] && b0 == b[..|b| - 1]
    requires !forall k :: 0 <= k < |a0| && k < |b0| ==> Compatible(FromEnd(a0, k), FromEnd(b0, k))
    ensures !forall k :: 0 <= k < |a| && k < |b| ==> Compatible(FromEnd(a, k), FromEnd(b, k))
  {
    var k :| 0 <= k < |a0| && k < |b0| && !Compatible(FromEnd(a0, k), FromEnd(b0, k));
    FromEndStep(a);
    FromEndStep(b);
    assert !Compatible(FromEnd(a, k + 1), FromEnd(b, k + 1));
  }

  /** A shape broadcasts with itself to itself. */
  lemma {:induction false} BroadcastShapeSelf(s: seq<nat>)
    ensures BroadcastShape(s, s) == Some(s)
  {
    if |s| > 0 {
      BroadcastShapeSelf(s[..|s| - 1]);
      assert s == s[..|s| - 1] + [s[|s| - 1]];
    }
  }

  /** Broadcasting does not depend on the order of the operands. */
  lemma {:induction false} BroadcastShapeCommutes(a: seq<nat>, b: seq<nat>)
    ensures BroadcastShape(a, b) == BroadcastShape(b, a)
    decreases |a|
  {
    if |a| > 0 && |b| > 0 {
      BroadcastShapeCommutes(a[..|a| - 1], b[..|b| - 1]);
    }
  }

  /** Two three-dimensional shapes that differ in an axis where neither is 1
      do not broadcast: the error a magnitude of 2x2x2 voxels meets against
      a phase of 3x3x3. */
  lemma MismatchedVolumes()
    ensures BroadcastShape([2, 2, 2], [3, 3, 3]).None?
  {
    assert !Compatible(FromEnd([2, 2, 2], 0), FromEnd([3, 3, 3], 0));
  }

  /** Whether numpy can broadcast a vector of this length against a
      three-vector. */
  predicate Broadcasts(n: nat) {
    n == 1 || n == 3
  }

  /** The translation along one axis: half the extent `zoom * size`,
      against the axis' sign. */
  function Offset(zoom: real, size: real, sign: int): real {
    zoom * size / 2.0 * -(sign as real)
  }

  /** The translation column: `zooms * shape / 2` times the negated signs
      of `a`'s diagonal, with numpy's broadcasting at both products. */
  function Translation(zooms: seq<real>, shape: seq<nat>, a: Matrix): (t: seq<real>)
    requires Broadcasts(|zooms|) && Broadcasts(|shape|)
    ensures |t| == 3
    ensures forall i :: 0 <= i < 3 ==>
              t[i] == Offset(At(zooms, i), At(Reals(shape), i), Sign(a[i][i]))
  {
    var origin := Halve(BroadcastMul(zooms, Reals(shape)).value);
    var t := BroadcastMul(origin, Negate(DiagonalSigns(a))).value;
    assert |t| == 3;
    forall i | 0 <= i < 3
      ensures t[i] == Offset(At(zooms, i), At(Reals(shape), i), Sign(a[i][i]))
    {
      assert At(origin, i) == At(zooms, i) * At(Reals(shape), i) / 2.0;
    }
    t
  }

  /** The base affine of a magnitude image with voxel sizes `zooms`, data
      shape `shape` and affine `a`. The origin is `zooms * shape / 2`; the
      diagonal is `zooms` times the signs of `a`'s diagonal (numpy's
      `fill_diagonal` would repeat the first entry into the corner, which the
      code then resets to 1); the translation is the origin times the
      negated signs. */
  function BaseAffine(zooms: seq<real>, shape: seq<nat>, a: Matrix): (r: Result<Matrix, AffineError>)
    ensures r.Success? <==> Broadcasts(|zooms|) && Broadcasts(|shape|)
    ensures r.Success? ==> forall i :: 0 <= i < 3 ==>
              r.value[i][i] == At(zooms, i) * Sign(a[i][i]) as real
    ensures r.Success? ==> forall i, j :: 0 <= i < 3 && 0 <= j < 3 && i != j ==> r.value[i][j] == 0.0
    ensures r.Success? ==> r.value[3] == [0.0, 0.0, 0.0, 1.0]
    ensures r.Success? ==> forall i :: 0 <= i < 3 ==>
              r.value[i][3] == Offset(At(zooms, i), At(Reals(shape), i), Sign(a[i][i]))
  {
    if BroadcastMul(zooms, Reals(shape)).None? then Failure(BroadcastMismatch)
    else
      var diagonal := BroadcastMul(zooms, DiagonalSigns(a));
      if diagonal.None? then Failure(BroadcastMismatch)
      else if !Broadcasts(|shape|) then
        // the origin has as many entries as the shape, which cannot meet the
        // three signs
        Failure(BroadcastMismatch)
      else
        Success(DiagonalAffine(diagonal.value, Translation(zooms, shape, a)))
  }

  /** The base affine reads nothing of `a` but the signs of its diagonal:
      rotations, shears and translations of the input do not change it. */
  lemma BaseAffineSignsOnly(zooms: seq<real>, shape: seq<nat>, a: Matrix, b: Matrix)
    requires forall i :: 0 <= i < 3 ==> Sign(a[i][i]) == Sign(b[i][i])
    ensures BaseAffine(zooms, shape, a) == BaseAffine(zooms, shape, b)
  {
    assert DiagonalSigns(a) == DiagonalSigns(b);
  }

  /** The affine applied to voxel coordinates `v`: row `i` of `m` times
      `(v[0], v[1], v[2], 1)`. */
  function Apply(m: Matrix, v: seq<real>, i: nat): real
    requires |v| == 3 && i < 4
  {
    m[i][0] * v[0] + m[i][1] * v[1] + m[i][2] * v[2] + m[i][3]
  }

  /** The voxel at half the data shape. */
  function Centre(shape: seq<nat>): (c: seq<real>)
    requires Broadcasts(|shape|)
    ensures |c| == 3
    ensures forall i :: 0 <= i < 3 ==> c[i] == At(Reals(shape), i) / 2.0
  {
    var n := Reals(shape);
    [At(n, 0) / 2.0, At(n, 1) / 2.0, At(n, 2) / 2.0]
  }

  /** Along one axis, the spacing times the half extent cancels the offset. */
  lemma OffsetCancels(spacing: real, half: real, offset: real, zoom: real, size: real, sign: int)
    requires spacing == zoom * sign as real && half == size / 2.0 && offset == Offset(zoom, size, sign)
    ensures spacing * half + offset == 0.0
  {
    assert zoom * sign as real * (size / 2.0) == zoom * size / 2.0 * (sign as real);
  }

  /** The base affine maps the voxel at half the data shape to the world
      origin: it centres the volume. */
  lemma BaseAffineCentres(zooms: seq<real>, shape: seq<nat>, a: Matrix, i: nat)
    requires BaseAffine(zooms, shape, a).Success? && i < 3
    ensures Apply(BaseAffine(zooms, shape, a).value, Centre(shape), i) == 0.0
  {
    var m := BaseAffine(zooms, shape, a).value;
    var c := Centre(shape);
    CentredRow(m, c, i, At(zooms, i), At(Reals(shape), i), Sign(a[i][i]));
  }

  lemma CentredRow(m: Matrix, c: seq<real>, i: nat, zoom: real, size: real, sign: int)
    requires |c| == 3 && i < 3
    requires forall j :: 0 <= j < 3 && j != i ==> m[i][j] == 0.0
    requires m[i][i] == zoom * sign as real && c[i] == size / 2.0 && m[i][3] == Offset(zoom, size, sign)
    ensures Apply(m, c, i) == 0.0
  {
    OffsetCancels(m[i][i], c[i], m[i][3], zoom, size, sign);
    ApplyDiagonalRow(m, c, i);
  }

  /** On a row whose only non-zero linear entry is on the diagonal, the
      affine scales one coordinate and shifts it. */
  lemma ApplyDiagonalRow(m: Matrix, v: seq<real>, i: nat)
    requires |v| == 3 && i < 3
    requires forall j :: 0 <= j < 3 && j != i ==> m[i][j] == 0.0
    ensures Apply(m, v, i) == m[i][i] * v[i] + m[i][3]
  {
    var x, y, z := m[i][0] * v[0], m[i][1] * v[1], m[i][2] * v[2];
    if i == 0 {
      assert m[i][1] == 0.0 && m[i][2] == 0.0;
      assert y == 0.0 && z == 0.0;
    } else if i == 1 {
      assert m[i][0] == 0.0 && m[i][2] == 0.0;
      assert x == 0.0 && z == 0.0;
    } else {
      assert m[i][0] == 0.0 && m[i][1] == 0.0;
      assert x == 0.0 && y == 0.0;
    }
  }

  /** Each voxel spacing of the base affine has the magnitude of the
      corresponding voxel size, and the direction of the input's axis. */
  lemma BaseAffineSpacing(zooms: seq<real>, shape: seq<nat>, a: Matrix, i: nat)
    requires BaseAffine(zooms, shape, a).Success? && i < 3
    requires At(zooms, i) > 0.0 && a[i][i] != 0.0
    ensures var d := BaseAffine(zooms, shape, a).value[i][i];
      (d == At(zooms, i) || d == -At(zooms, i)) && (d > 0.0 <==> a[i][i] > 0.0)
  {
  }

  /** With positive voxel sizes the base affine is a fixed point: an image
      already on its base affine gets the same base affine again. */
  lemma {:induction false} BaseAffineFixedPoint(zooms: seq<real>, shape: seq<nat>, a: Matrix)
    requires BaseAffine(zooms, shape, a).Success?
    requires forall i :: 0 <= i < |zooms| ==> zooms[i] > 0.0
    ensures BaseAffine(zooms, shape, BaseAffine(zooms, shape, a).value) == BaseAffine(zooms, shape, a)
  {
    var m := BaseAffine(zooms, shape, a).value;
    forall i | 0 <= i < 3
      ensures Sign(m[i][i]) == Sign(a[i][i])
    {
      assert At(zooms, i) > 0.0;
    }
    var b := BaseAffine(zooms, shape, m).value;
    forall i | 0 <= i < 4
      ensures b[i] == m[i]
    {
    }
  }
}

=== FILE: axial_sampling.dfy ===
/** The deterministic shell of the oblique-to-axial resampler: the obliquity
    gate, the names of the resampled files, which outputs exist, and the
    fast path of resampling one image onto another's grid. Voxel values are
    not modelled: a volume is its kind, shape, voxel sizes and affine.
    Loading a file, nilearn's resampler and `os.path.abspath` are
    parameters, as they are file-system work or foreign code. */
module AxialSampling {
  import opened Wrappers
  import opened Text
  import opened AxialAffine

  /** What a volume's voxels hold, where the resampler fixes it; a loaded
      image, a mask included, carries whatever its loader gives it. */
  datatype Channel = Magnitude | Phase | RealPart

  datatype Interpolation = Continuous | Nearest

  /** An image as the model sees it: no voxel values, only its geometry. */
  datatype Volume = Volume(channel: Channel, shape: seq<nat>, zooms: seq<real>, affine: Matrix)

  /** nilearn's `resample_img(image, target_affine, target_shape,
      interpolation)`. */
  type Resampler = (Volume, Matrix, Option<seq<nat>>, Interpolation) -> Volume

  /** A resampler that puts its result on the target grid it was given. */
  ghost predicate HonoursTarget(resample: Resampler) {
    forall v, t, s, i :: resample(v, t, s, i).affine == t && (s.Some? ==> resample(v, t, s, i).shape == s.value)
  }

  /** The images `resample_to_axial` returns. */
  datatype Axial = Axial(magnitude: Volume, phase: Volume, mask: Option<Volume>)

  /** Resamples magnitude, phase and an optional mask onto the base affine of
      the magnitude image. The real part `mag * cos(pha)` has the shape the
      two data shapes broadcast to, the magnitude's voxel sizes and the phase
      image's affine; it is resampled with continuous interpolation and no
      target shape (the imaginary part lies on the same grid and is not
      tracked), and the outputs are re-wrapped on the resampled real part's
      grid. The mask is resampled with nearest-neighbour interpolation. The
      base affine is built first, so its error comes before the
      broadcasting error of the product. */
  function ResampleToAxial(mag: Volume, pha: Volume, mask: Option<Volume>, resample: Resampler)
    : (r: Result<Axial, AffineError>)
    ensures r.Success? <==>
      BaseAffine(mag.zooms, mag.shape, mag.affine).Success? && BroadcastShape(mag.shape, pha.shape).Some?
    ensures r.Success? ==>
      var base := BaseAffine(mag.zooms, mag.shape, mag.affine).value;
      var realPart := Volume(RealPart, BroadcastShape(mag.shape, pha.shape).value, mag.zooms, pha.affine);
      var realRot := resample(realPart, base, None, Continuous);
      && r.value.magnitude.channel == Magnitude && r.value.phase.channel == Phase
      && r.value.magnitude.affine == realRot.affine && r.value.phase.affine == realRot.affine
      && r.value.magnitude.shape == realRot.shape && r.value.phase.shape == realRot.shape
    ensures r.Success? ==> (r.value.mask.Some? <==> mask.Some?)
    ensures r.Success? && mask.Some? ==>
      r.value.mask.value == resample(mask.value, BaseAffine(mag.zooms, mag.shape, mag.affine).value, None, Nearest)
  {
    var base :- BaseAffine(mag.zooms, mag.shape, mag.affine);
    match BroadcastShape(mag.shape, pha.shape)
    case None => Failure(BroadcastMismatch)
    case Some(shape) =>
      var realPart := Volume(RealPart, shape, mag.zooms, pha.affine);
      var realRot := resample(realPart, base, None, Continuous);
      var maskRot := if mask.Some? then Some(resample(mask.value, base, None, Nearest)) else None;
      Success(Axial(realRot.(channel := Magnitude), realRot.(channel := Phase), maskRot))
  }

  /** For a magnitude and phase of one shape, as a scanner writes them,
      resampling fails only for want of a base affine, and the real part
      keeps the magnitude's shape. */
  lemma {:induction false} SameShapeResamples(mag: Volume, pha: Volume, mask: Option<Volume>, resample: Resampler)
    requires mag.shape == pha.shape
    ensures var r := ResampleToAxial(mag, pha, mask, resample);
      && (r.Success? <==> BaseAffine(mag.zooms, mag.shape, mag.affine).Success?)
      && (r.Success? ==>
            var base := BaseAffine(mag.zooms, mag.shape, mag.affine).value;
            r.value.magnitude.shape == resample(Volume(RealPart, mag.shape, mag.zooms, pha.affine), base, None, Continuous).shape)
  {
    BroadcastShapeSelf(mag.shape);
  }

  /** With a resampler that honours its target, every output of
      `ResampleToAxial` lies on the base affine, so magnitude, phase and mask
      share one grid. */
  lemma AxialOutputsOnBaseAffine(mag: Volume, pha: Volume, mask: Option<Volume>, resample: Resampler)
    requires HonoursTarget(resample)
    ensures var r := ResampleToAxial(mag, pha, mask, resample);
      r.Success? ==>
        var base := BaseAffine(mag.zooms, mag.shape, mag.affine).value;
        && r.value.magnitude.affine == base && r.value.phase.affine == base
        && (r.value.mask.Some? ==> r.value.mask.value.affine == base)
  {
  }

  /** The obliquity gate: resampling is skipped only when a threshold is set
      (present and non-zero) and the obliquity norm is below it. */
  predicate SkipsResampling(threshold: Option<real>, obliquityNorm: real) {
    threshold.Some? && threshold.value != 0.0 && obliquityNorm < threshold.value
  }

  /** The tag that marks a resampled copy. */
  const Tag := "_resampled"

  /** The name a resampled copy of `path` is saved under, before it is made
      absolute: the file name's stem (up to its first '.'), the tag, a '.',
      then everything after the first '.' of the whole path. */
  function ResampledName(path: string): (name: string)
    ensures name == Before(Basename(path), '.') + Tag + "." + After(path, '.')
  {
    JoinSplitTail(path, '.');
    Split(Basename(path), '.')[0] + Tag + "." + Join(".", Split(path, '.')[1..])
  }

  /** The directory part of a path: what precedes its final component. */
  function Directory(path: string): (d: string)
    ensures path == d + Basename(path)
  {
    path[..|path| - |Basename(path)|]
  }

  /** A string splits at its first `c` into the text before it and the text
      from it on. */
  lemma SplitAtFirst(b: string, c: char)
    requires c in b
    ensures |Before(b, c)| < |b|
    ensures b[..|Before(b, c)|] == Before(b, c) && b[|Before(b, c)|..] == [c] + After(b, c)
  {
    assert b == Before(b, c) + [c] + After(b, c);
  }

  lemma Regroup(x: string, t: string, c: char, z: string)
    ensures x + t + ([c] + z) == x + t + [c] + z
  {
  }

  /** When the directories hold no '.', the resampled name is the file name
      with the tag inserted before its first '.' (or, for a file name without
      one, the tag and a '.' appended), and it has no '/'. */
  lemma {:induction false} ResampledNameInsertsTag(path: string)
    requires '.' !in Directory(path)
    ensures var b := Basename(path);
      var k := |Before(b, '.')|;
      && ('.' in b ==> k < |b| && ResampledName(path) == b[..k] + Tag + b[k..])
      && ('.' !in b ==> ResampledName(path) == b + Tag + ".")
      && '/' !in ResampledName(path)
  {
    var d, b := Directory(path), Basename(path);
    AfterSkipsPrefix(d, b, '.');
    TagInserted(b, ResampledName(path));
  }

  /** The name built from a file name's own stem and extension. */
  lemma TagInserted(b: string, name: string)
    requires '/' !in b
    requires name == Before(b, '.') + Tag + "." + After(b, '.')
    ensures var k := |Before(b, '.')|;
      && ('.' in b ==> k < |b| && name == b[..k] + Tag + b[k..])
      && ('.' !in b ==> name == b + Tag + ".")
      && '/' !in name
  {
    var before, after := Before(b, '.'), After(b, '.');
    if '.' in b {
      SplitAtFirst(b, '.');
      Regroup(before, Tag, '.', after);
      assert '/' !in after by {
        assert b == before + ['.'] + after;
      }
    }
  }

  /** The first `c` of a string comes no later than any `c`. */
  lemma {:induction false} BeforeStopsAt(s: string, c: char, k: nat)
    requires k < |s| && s[k] == c
    ensures |Before(s, c)| <= k
  {
    if s[0] != c {
      assert s[1..][k - 1] == c;
      BeforeStopsAt(s[1..], c, k - 1);
      assert FirstIndex(s, c) == FirstIndex(s[1..], c) + 1;
    }
  }

  /** A '.' in a directory name leaks into the resampled name: the
      extension then starts inside the directories, so the name holds a
      '/', and the file would be written below a sub-directory of the
      working directory. */
  lemma {:induction false} DottedDirectoryLeaks(dir: string, file: string)
    requires '.' in dir
    ensures '/' in ResampledName(dir + "/" + file)
  {
    var path := dir + "/" + file;
    var k :| 0 <= k < |dir| && dir[k] == '.';
    assert path[k] == '.';
    BeforeStopsAt(path, '.', k);
    var before := Before(path, '.');
    var after := After(path, '.');
    assert path == before + ['.'] + after;
    assert after[|dir| - |before| - 1] == path[|dir|] == '/';
    var name := ResampledName(path);
    assert name[|name| - |after| + (|dir| - |before| - 1)] == '/';
  }

  /** A file written by the resampler. */
  datatype SavedFile = SavedFile(path: string, volume: Volume)

  /** The three file names `resample_files` returns. */
  datatype FileOutputs = FileOutputs(magnitude: string, phase: string, mask: Option<string>)

  /** The paths of the written files, in the order they were written. */
  function Paths(saved: seq<SavedFile>): (ps: seq<string>)
    ensures |ps| == |saved|
    ensures forall k :: 0 <= k < |saved| ==> ps[k] == saved[k].path
  {
    seq(|saved|, k requires 0 <= k < |saved| => saved[k].path)
  }

  /** The names returned and the files written. */
  datatype Outcome = Outcome(outputs: FileOutputs, saved: seq<SavedFile>)

  /** The mask file name the interface returns when no mask was resampled. */
  const Placeholder := "placeholder"

  /** The mask image, loaded only when a non-empty name is given. */
  function LoadMask(maskFile: Option<string>, load: string -> Volume): (m: Option<Volume>)
    ensures m.Some? <==> Truthy(maskFile)
    ensures m.Some? ==> m.value == load(maskFile.value)
  {
    if Truthy(maskFile) then Some(load(maskFile.value)) else None
  }

  /** Resamples a magnitude/phase pair (and a mask, when a non-empty name is
      given) to axial orientation unless the obliquity gate says it is not
      needed, in which case the input names come back untouched. `load`
      reads an image, `obliquityNorm` is the norm of the obliquity angles of
      an affine in degrees, and `absPath` resolves a name against the working
      directory. */
  function ResampleFiles(
    magFile: string, phaFile: string, maskFile: Option<string>, threshold: Option<real>,
    load: string -> Volume, obliquityNorm: Matrix -> real, resample: Resampler, absPath: string -> string)
    : (r: Result<Outcome, AffineError>)
    // the gate
    ensures SkipsResampling(threshold, obliquityNorm(load(magFile).affine)) ==>
      r == Success(Outcome(FileOutputs(magFile, phaFile, maskFile), []))
    ensures !SkipsResampling(threshold, obliquityNorm(load(magFile).affine)) ==>
      (r.Success? <==> ResampleToAxial(load(magFile), load(phaFile), LoadMask(maskFile, load), resample).Success?)
    // the names and files of a resampled pair
    ensures !SkipsResampling(threshold, obliquityNorm(load(magFile).affine)) && r.Success? ==>
      var o := r.value;
      var axial := ResampleToAxial(load(magFile), load(phaFile), LoadMask(maskFile, load), resample).value;
      && |o.saved| >= 2
      && o.outputs.magnitude == absPath(ResampledName(magFile)) == o.saved[0].path
      && o.outputs.phase == absPath(ResampledName(phaFile)) == o.saved[1].path
      && o.saved[0].volume == axial.magnitude && o.saved[1].volume == axial.phase
    // the mask: resampled with nearest interpolation when named, else the placeholder
    ensures !SkipsResampling(threshold, obliquityNorm(load(magFile).affine)) && r.Success? && !Truthy(maskFile) ==>
      r.value.outputs.mask == Some(Placeholder) && |r.value.saved| == 2
    ensures !SkipsResampling(threshold, obliquityNorm(load(magFile).affine)) && r.Success? && Truthy(maskFile) ==>
      var mag := load(magFile);
      var maskName := absPath(ResampledName(maskFile.value));
      && r.value.outputs.mask == Some(maskName)
      && |r.value.saved| == 3
      && r.value.saved[2] == SavedFile(maskName,
           resample(load(maskFile.value), BaseAffine(mag.zooms, mag.shape, mag.affine).value, None, Nearest))
  {
    var mag := load(magFile);
    var pha := load(phaFile);
    var mask := LoadMask(maskFile, load);
    if SkipsResampling(threshold, obliquityNorm(mag.affine)) then
      Success(Outcome(FileOutputs(magFile, phaFile, maskFile), []))
    else
      var axial :- ResampleToAxial(mag, pha, mask, resample);
      var maskName := if Truthy(maskFile) then absPath(ResampledName(maskFile.value)) else Placeholder;
      Success(SaveAxial(absPath(ResampledName(magFile)), absPath(ResampledName(phaFile)), maskName, axial))
  }

  /** Saves the resampled images under the given names, and names the mask
      "placeholder" when there is none. */
  function SaveAxial(magName: string, phaName: string, maskName: string, axial: Axial): (o: Outcome)
    // every returned name but the placeholder names a written file, in order
    ensures o.outputs.mask.Some?
    ensures Paths(o.saved) ==
      [o.outputs.magnitude, o.outputs.phase] + (if axial.mask.Some? then [o.outputs.mask.value] else [])
    ensures |o.saved| == if axial.mask.Some? then 3 else 2
    ensures o.outputs.magnitude == magName && o.outputs.phase == phaName
    ensures o.saved[0] == SavedFile(magName, axial.magnitude)
    ensures o.saved[1] == SavedFile(phaName, axial.phase)
    ensures axial.mask.None? ==> o.outputs.mask == Some(Placeholder)
    ensures axial.mask.Some? ==> o.outputs.mask == Some(maskName) && o.saved[2] == SavedFile(maskName, axial.mask.value)
  {
    var saved := [SavedFile(magName, axial.magnitude), SavedFile(phaName, axial.phase)];
    match axial.mask
    case None => Outcome(FileOutputs(magName, phaName, Some(Placeholder)), saved)
    case Some(maskRot) => Outcome(FileOutputs(magName, phaName, Some(maskName)), saved + [SavedFile(maskName, maskRot)])
  }

  /** A resampling call returns the names of the files it wrote, in the
      order it wrote them, with the placeholder standing for a mask it did
      not write; a skipping call returns the input names and writes
      nothing. */
  lemma ResampleFilesReturnsWhatItWrites(
    magFile: string, phaFile: string, maskFile: Option<string>, threshold: Option<real>,
    load: string -> Volume, obliquityNorm: Matrix -> real, resample: Resampler, absPath: string -> string)
    ensures var r := ResampleFiles(magFile, phaFile, maskFile, threshold, load, obliquityNorm, resample, absPath);
      r.Success? && |r.value.saved| > 0 ==>
        var out := r.value.outputs;
        && out.mask.Some?
        && Paths(r.value.saved) ==
             [out.magnitude, out.phase] + (if Truthy(maskFile) then [out.mask.value] else [])
        && (!Truthy(maskFile) ==> out.mask.value == Placeholder)
    ensures var r := ResampleFiles(magFile, phaFile, maskFile, threshold, load, obliquityNorm, resample, absPath);
      r.Success? && |r.value.saved| == 0 ==> r.value.outputs == FileOutputs(magFile, phaFile, maskFile)
  {
  }

  /** A successful call writes nothing exactly when the gate skips
      resampling. */
  lemma ResampleFilesGate(
    magFile: string, phaFile: string, maskFile: Option<string>, threshold: Option<real>,
    load: string -> Volume, obliquityNorm: Matrix -> real, resample: Resampler, absPath: string -> string)
    ensures var r := ResampleFiles(magFile, phaFile, maskFile, threshold, load, obliquityNorm, resample, absPath);
      r.Success? ==> (|r.value.saved| == 0 <==> SkipsResampling(threshold, obliquityNorm(load(magFile).affine)))
  {
  }

  /** An unset or zero threshold always resamples. */
  lemma NoThresholdAlwaysResamples(obliquityNorm: real)
    ensures !SkipsResampling(None, obliquityNorm) && !SkipsResampling(Some(0.0), obliquityNorm)
  {
  }

  /** What `resample_like` returns and writes. */
  datatype LikeOutcome = LikeOutcome(path: string, saved: seq<SavedFile>)

  /** Puts the image in `inFile` on the grid of the image in `inLike`: the
      file itself when the two affines are equal entry by entry, otherwise a
      copy resampled to the reference's affine and shape. */
  function ResampleLike(
    inFile: string, inLike: string, interpolation: Interpolation,
    load: string -> Volume, resample: Resampler, absPath: string -> string)
    : (r: LikeOutcome)
    ensures load(inFile).affine == load(inLike).affine ==> r == LikeOutcome(inFile, [])
    ensures load(inFile).affine != load(inLike).affine ==>
      && r.path == absPath(ResampledName(inFile))
      && r.saved == [SavedFile(r.path, resample(load(inFile), load(inLike).affine, Some(load(inLike).shape), interpolation))]
  {
    var image := load(inFile);
    var like := load(inLike);
    if image.affine == like.affine then LikeOutcome(inFile, [])
    else
      var name := absPath(ResampledName(inFile));
      LikeOutcome(name, [SavedFile(name, resample(image, like.affine, Some(like.shape), interpolation))])
  }

  /** With a resampler that honours its target, resampling like a reference
      settles: run again on its own output (as loaded back), it takes the
      fast path and returns the same name. */
  lemma ResampleLikeSettles(
    inFile: string, inLike: string, interpolation: Interpolation,
    load: string -> Volume, reload: string -> Volume, resample: Resampler, absPath: string -> string)
    requires HonoursTarget(resample)
    requires var r := ResampleLike(inFile, inLike, interpolation, load, resample, absPath);
      && reload(inLike) == load(inLike)
      && reload(r.path) == if |r.saved| == 0 then load(inFile) else r.saved[0].volume
    ensures var r := ResampleLike(inFile, inLike, interpolation, load, resample, absPath);
      && (|r.saved| > 0 ==> r.saved[0].volume.affine == load(inLike).affine && r.saved[0].volume.shape == load(inLike).shape)
      && ResampleLike(r.path, inLike, interpolation, reload, resample, absPath) == LikeOutcome(r.path, [])
  {
  }
}

=== FILE: logger.dfy ===
/** The pipeline's log bookkeeping: the numeric log levels, the in-memory
    record stream each handler writes into (a list that drops its oldest
    record once a cap is exceeded), and the summary logged at the end of a
    run. Printing a record to the console is a side effect and is not
    modelled; the stream keeps the flag that asks for it. */
module Logger {
  import opened Wrappers

  datatype LogLevel = Critical | Error | Warning | Info | Debug | NotSet {
    /** The level's number, as the `logging` module counts severity. */
    function Value(): int {
      match this
      case Critical => 50
      case Error => 40
      case Warning => 30
      case Info => 20
      case Debug => 10
      case NotSet => 0
    }
  }

  /** `LogLevel(v)`: the level with value `v`, or `None` where Python raises
      `ValueError`. */
  function LevelOf(v: int): (l: Option<LogLevel>)
    ensures l.Some? <==> v in {50, 40, 30, 20, 10, 0}
  {
    if v == 50 then Some(Critical)
    else if v == 40 then Some(Error)
    else if v == 30 then Some(Warning)
    else if v == 20 then Some(Info)
    else if v == 10 then Some(Debug)
    else if v == 0 then Some(NotSet)
    else None
  }

  /** Every level is found again from its value, so no two levels share one
      (none of them is an alias of another). */
  lemma LevelOfValue(l: LogLevel)
    ensures LevelOf(l.Value()) == Some(l)
  {
  }

  /** The levels in declaration order, from most to least severe. */
  const Levels: seq<LogLevel> := [Critical, Error, Warning, Info, Debug, NotSet]

  /** Declaration order is strictly decreasing severity. */
  lemma LevelsDecrease()
    ensures forall i, j :: 0 <= i < j < |Levels| ==> Levels[i].Value() > Levels[j].Value()
  {
  }

  /** The in-memory stream a log handler writes to. */
  datatype StringStream = StringStream(items: seq<string>, maxRecords: Option<int>, printNewRecords: bool)

  /** A new stream: empty, with the given cap and console echo. */
  function NewStream(maxRecords: Option<int>, printNewRecords: bool): (s: StringStream)
    ensures Len(s) == 0
    ensures s.maxRecords == maxRecords && s.printNewRecords == printNewRecords
  {
    StringStream([], maxRecords, printNewRecords)
  }

  /** Whether the cap is set: `max_records` is truthy (present and
      non-zero). */
  predicate Capped(s: StringStream) {
    s.maxRecords.Some? && s.maxRecords.value != 0
  }

  /** `len(stream)`. */
  function Len(s: StringStream): (n: nat)
  {
    |s.items|
  }

  datatype IndexError = IndexOutOfRange(index: int)

  /** `len` is where indexing stops: the last record is at `len - 1` (and at
      `-1`), and `len` itself and `-len - 1` are out of range. */
  lemma LenBoundsIndexing(s: StringStream)
    ensures Get(s, Len(s)).Failure? && Get(s, -(Len(s) as int) - 1).Failure?
    ensures Len(s) > 0 ==> Get(s, Len(s) - 1) == Get(s, -1) == Success(s.items[Len(s) - 1])
  {
  }

  /** `stream.__get__(index)`: Python list indexing, negative indices
      counting from the end. */
  function Get(s: StringStream, index: int): (r: Result<string, IndexError>)
    ensures r.Success? <==> -(Len(s) as int) <= index < Len(s)
    ensures r.Success? && index >= 0 ==> r.value == s.items[index]
    ensures r.Success? && index < 0 ==> r.value == s.items[Len(s) + index]
    ensures r.Failure? ==> r.error == IndexOutOfRange(index)
  {
    if 0 <= index < |s.items| then Success(s.items[index])
    else if -|s.items| <= index < 0 then Success(s.items[|s.items| + index])
    else Failure(IndexOutOfRange(index))
  }

  /** `stream.write(record)`: append, then drop the oldest record when the
      cap is set and exceeded. */
  function Write(s: StringStream, record: string): (t: StringStream)
    ensures t.maxRecords == s.maxRecords && t.printNewRecords == s.printNewRecords
    ensures !Capped(s) ==> t.items == s.items + [record]
    ensures Capped(s) && Len(s) + 1 > s.maxRecords.value ==> t.items == (s.items + [record])[1..]
    ensures Capped(s) && Len(s) + 1 <= s.maxRecords.value ==> t.items == s.items + [record]
    ensures Len(t) > 0 ==> t.items[Len(t) - 1] == record
    ensures Capped(s) && s.maxRecords.value > 0 && Len(s) <= s.maxRecords.value ==>
              0 < Len(t) <= s.maxRecords.value
  {
    var items := s.items + [record];
    if Capped(s) && |items| > s.maxRecords.value then s.(items := items[1..])
    else s.(items := items)
  }

  /** `stream.flush()`: nothing to do for an in-memory stream. */
  function Flush(s: StringStream): (t: StringStream)
    ensures t == s
  {
    s
  }

  /** Without a cap, `len` grows by one per write, the new record is the one
      `__get__(-1)` returns, and every earlier index still reads the same
      record. */
  lemma WriteGrows(s: StringStream, record: string)
    requires !Capped(s)
    ensures Len(Write(s, record)) == Len(s) + 1
    ensures Get(Write(s, record), -1) == Success(record)
    ensures forall i :: 0 <= i < Len(s) ==> Get(Write(s, record), i) == Get(s, i)
  {
  }

  /** A new stream has nothing to read at any index. */
  lemma NewStreamEmpty(maxRecords: Option<int>, printNewRecords: bool, index: int)
    ensures Get(NewStream(maxRecords, printNewRecords), index) == Failure(IndexOutOfRange(index))
  {
  }

  /** Writing into a stream that holds fewer records than its cap only
      grows it: earlier records keep their positions. */
  lemma WriteKeepsEarlier(s: StringStream, record: string, i: nat)
    requires i < Len(s)
    requires !Capped(s) || Len(s) + 1 <= s.maxRecords.value
    ensures Write(s, record).items[i] == s.items[i]
  {
  }

  /** The last `m` elements of `xs` (all of them when there are fewer). */
  function Recent(xs: seq<string>, m: nat): (r: seq<string>)
    ensures |r| <= m && |r| <= |xs|
    ensures |xs| <= m ==> r == xs
    ensures r == xs[|xs| - |r|..]
  {
    if |xs| <= m then xs else xs[|xs| - m..]
  }

  /** One write into a capped stream holding the recent records of `xs` holds
      the recent records of `xs + [record]`. */
  lemma {:induction false} RecentStep(xs: seq<string>, record: string, m: nat)
    requires m > 0
    ensures var kept := Recent(xs, m) + [record];
      (if |kept| > m then kept[1..] else kept) == Recent(xs + [record], m)
  {
    var kept := Recent(xs, m) + [record];
    var ys := xs + [record];
    if |xs| < m {
      assert kept == ys;
    } else {
      assert |Recent(xs, m)| == m;
      assert kept[1..] == ys[|ys| - m..];
    }
  }

  /** Writes the records in order. A stream without a cap keeps them all; a
      stream capped at `m > 0` that started within its cap keeps exactly the
      `m` most recent records. */
  method WriteAll(s: StringStream, records: seq<string>) returns (t: StringStream)
    ensures t.maxRecords == s.maxRecords && t.printNewRecords == s.printNewRecords
    ensures !Capped(s) ==> t.items == s.items + records
    ensures Capped(s) && s.maxRecords.value > 0 && Len(s) <= s.maxRecords.value ==>
              t.items == Recent(s.items + records, s.maxRecords.value)
  {
    t := s;
    var bounded := Capped(s) && s.maxRecords.value > 0 && Len(s) <= s.maxRecords.value;
    var i := 0;
    while i < |records|
      invariant 0 <= i <= |records|
      invariant t.maxRecords == s.maxRecords && t.printNewRecords == s.printNewRecords
      invariant !Capped(s) ==> t.items == s.items + records[..i]
      invariant bounded ==> t.items == Recent(s.items + records[..i], s.maxRecords.value)
    {
      var written := s.items + records[..i];
      assert s.items + records[..i + 1] == written + [records[i]] by {
        assert records[..i + 1] == records[..i] + [records[i]];
      }
      if bounded {
        var m: nat := s.maxRecords.value;
        RecentStep(written, records[i], m);
        t := Write(t, records[i]);
        assert t.items == Recent(written + [records[i]], m);
      } else {
        t := Write(t, records[i]);
      }
      i := i + 1;
    }
    assert records[..i] == records;
  }

  /** The three in-memory handlers of the pipeline's logger, in the order
      they are attached: the console, the warnings and the errors. */
  datatype Handlers = Handlers(console: StringStream, warnings: StringStream, errors: StringStream)

  /** The handler streams as the logger is made: no cap anywhere, and only
      the console echoes new records. */
  function MakeHandlers(): (h: Handlers)
    ensures Len(h.console) == 0 && Len(h.warnings) == 0 && Len(h.errors) == 0
    ensures h.console.printNewRecords && !h.warnings.printNewRecords && !h.errors.printNewRecords
    ensures !Capped(h.console) && !Capped(h.warnings) && !Capped(h.errors)
  {
    Handlers(NewStream(None, true), NewStream(None, false), NewStream(None, false))
  }

  /** A message logged at a level. */
  datatype LogRecord = LogRecord(level: LogLevel, message: string)

  const WarningsMessage := "Process completed with warnings. Some runs may have been skipped."
  const ErrorsMessage := "Errors occurred - outputs may not be usable."

  /** The closing summary: what is logged, in order. */
  function ShowWarningSummary(h: Handlers): (logged: seq<LogRecord>)
    ensures |logged| <= 2
    ensures forall k :: 0 <= k < |logged| ==>
              logged[k] == LogRecord(Info, WarningsMessage) || logged[k] == LogRecord(Info, ErrorsMessage)
    ensures LogRecord(Info, WarningsMessage) in logged <==> Len(h.warnings) > 0
    ensures LogRecord(Info, ErrorsMessage) in logged <==> Len(h.errors) > 0
    ensures |logged| == 2 ==> logged[0].message == WarningsMessage && logged[1].message == ErrorsMessage
  {
    assert WarningsMessage != ErrorsMessage by {
      assert |WarningsMessage| != |ErrorsMessage|;
    }
    (if |h.warnings.items| > 0 then [LogRecord(Info, WarningsMessage)] else [])
    + (if |h.errors.items| > 0 then [LogRecord(Info, ErrorsMessage)] else [])
  }

  /** Once a record reaches the warnings stream, or the errors stream, the
      summary reports it, whatever else was logged; a stream capped at a
      negative count, which Python empties on every write, is the
      exception. */
  lemma WrittenRecordIsSummarised(h: Handlers, record: string)
    ensures !Capped(h.warnings) || h.warnings.maxRecords.value > 0 ==>
      LogRecord(Info, WarningsMessage) in ShowWarningSummary(h.(warnings := Write(h.warnings, record)))
    ensures !Capped(h.errors) || h.errors.maxRecords.value > 0 ==>
      LogRecord(Info, ErrorsMessage) in ShowWarningSummary(h.(errors := Write(h.errors, record)))
  {
  }

  /** A run that logged no warnings and no errors ends with no summary. */
  lemma QuietRunNoSummary()
    ensures ShowWarningSummary(MakeHandlers()) == []
  {
  }
}

=== FILE: ordering.dfy ===
/** Python's ordering of `str` values and the `sorted(set(...))` idiom the
    pipeline uses to list the runs of a session. */
module Ordering {

  /** `a < b` on Python strings: lexicographic by code point, a proper prefix
      sorting first. */
  predicate Less(a: string, b: string)
  {
    if |a| == 0 then |b| > 0
    else if |b| == 0 then false
    else a[0] < b[0] || (a[0] == b[0] && Less(a[1..], b[1..]))
  }

  lemma {:induction false} LessIrreflexive(a: string)
    ensures !Less(a, a)
  {
    if |a| > 0 {
      LessIrreflexive(a[1..]);
    }
  }

  lemma {:induction false} LessTransitive(a: string, b: string, c: string)
    requires Less(a, b) && Less(b, c)
    ensures Less(a, c)
  {
    if |a| > 0 && |b| > 0 && |c| > 0 && a[0] == b[0] && b[0] == c[0] {
      LessTransitive(a[1..], b[1..], c[1..]);
    }
  }

  lemma {:induction false} LessTotal(a: string, b: string)
    requires a != b
    ensures Less(a, b) || Less(b, a)
  {
    if |a| > 0 && |b| > 0 && a[0] == b[0] {
      assert a == [a[0]] + a[1..] && b == [b[0]] + b[1..];
      LessTotal(a[1..], b[1..]);
    }
  }

  /** Every earlier element is strictly less than every later one. */
  predicate StrictlySorted(s: seq<string>) {
    forall i, j :: 0 <= i < j < |s| ==> Less(s[i], s[j])
  }

  /** The elements of a sequence, as a set. */
  function Elements(s: seq<string>): set<string> {
    set x | x in s
  }

  /** Inserts `x` into a strictly sorted sequence, unless it is already there. */
  function Insert(x: string, s: seq<string>): (r: seq<string>)
    requires StrictlySorted(s)
    ensures StrictlySorted(r)
    ensures Elements(r) == Elements(s) + {x}
  {
    if |s| == 0 then [x]
    else if x == s[0] then s
    else if Less(x, s[0]) then
      assert forall j :: 0 <= j < |s| ==> Less(x, s[j]) by {
        forall j | 0 <= j < |s|
          ensures Less(x, s[j])
        {
          if j > 0 {
            LessTransitive(x, s[0], s[j]);
          }
        }
      }
      [x] + s
    else
      LessTotal(x, s[0]);
      var tail := Insert(x, s[1..]);
      assert Elements(s) == {s[0]} + Elements(s[1..]) by {
        assert s == [s[0]] + s[1..];
      }
      assert forall k :: 0 <= k < |tail| ==> Less(s[0], tail[k]) by {
        forall k | 0 <= k < |tail|
          ensures Less(s[0], tail[k])
        {
          assert tail[k] in Elements(tail);
          if tail[k] != x {
            var j :| 0 <= j < |s[1..]| && s[1..][j] == tail[k];
            assert s[j + 1] == tail[k];
          }
        }
      }
      var r := [s[0]] + tail;
      assert StrictlySorted(r) by {
        forall i, j | 0 <= i < j < |r|
          ensures Less(r[i], r[j])
        {
          if i > 0 {
            assert r[i] == tail[i - 1] && r[j] == tail[j - 1];
          }
        }
      }
      assert Elements(r) == {s[0]} + Elements(tail) by {
        assert forall y :: y in r <==> y == s[0] || y in tail;
      }
      r
  }

  /** `sorted(set(xs))`: the distinct elements of `xs` in ascending order. */
  function SortedDistinct(xs: seq<string>): (r: seq<string>)
    ensures StrictlySorted(r)
    ensures Elements(r) == Elements(xs)
  {
    if |xs| == 0 then []
    else
      assert Elements(xs) == Elements(xs[..|xs| - 1]) + {xs[|xs| - 1]} by {
        assert xs == xs[..|xs| - 1] + [xs[|xs| - 1]];
      }
      Insert(xs[|xs| - 1], SortedDistinct(xs[..|xs| - 1]))
  }

  /** Only the empty sequence has no elements. */
  lemma EmptyElements(s: seq<string>)
    ensures Elements(s) == {} <==> |s| == 0
  {
    if |s| > 0 {
      assert s[0] in Elements(s);
    }
  }

  /** A strictly sorted sequence holds no element twice. */
  lemma StrictlySortedIsDistinct(s: seq<string>)
    requires StrictlySorted(s)
    ensures forall i, j :: 0 <= i < j < |s| ==> s[i] != s[j]
  {
    forall i, j | 0 <= i < j < |s|
      ensures s[i] != s[j]
    {
      LessIrreflexive(s[i]);
    }
  }

  /** A strictly sorted sequence is determined by its set of elements, so
      `SortedDistinct` is the only answer `sorted(set(xs))` could give. */
  lemma {:induction false} SortedUnique(a: seq<string>, b: seq<string>)
    requires StrictlySorted(a) && StrictlySorted(b)
    requires Elements(a) == Elements(b)
    ensures a == b
    decreases |a|
  {
    EmptyElements(a);
    EmptyElements(b);
    if |a| > 0 && |b| > 0 {
      // Both heads are the least element of the common set.
      if a[0] != b[0] {
        assert b[0] in Elements(a);
        assert a[0] in Elements(b);
        var i :| 0 <= i < |a| && a[i] == b[0];
        var j :| 0 <= j < |b| && b[j] == a[0];
        assert i > 0 && j > 0;
        LessTransitive(a[0], b[0], a[0]);
        LessIrreflexive(a[0]);
      }
      assert Elements(a[1..]) == Elements(a) - {a[0]} by {
        assert a == [a[0]] + a[1..];
        StrictlySortedIsDistinct(a);
        assert a[0] !in a[1..];
      }
      assert Elements(b[1..]) == Elements(b) - {b[0]} by {
        assert b == [b[0]] + b[1..];
        StrictlySortedIsDistinct(b);
        assert b[0] !in b[1..];
      }
      SortedUnique(a[1..], b[1..]);
      assert a == [a[0]] + a[1..] && b == [b[0]] + b[1..];
    }
  }
}

=== FILE: run_options.dfy ===
/** Normalisation of the QSM pipeline's command-line options: the masking
    default per QSM algorithm, the rules that switch off the BET add-on, the
    two-pass inversion and inhomogeneity correction when the chosen masking
    cannot use them, and the process and thread counts. */
module RunOptions {
  import opened Wrappers
  import opened Text

  /** The two values the command line admits for `--qsm_algorithm`. */
  datatype QsmAlgorithm = TgvQsm | NextQsm

  /** The options as the command line leaves them, before normalisation. */
  datatype CliArgs = CliArgs(
    qsmAlgorithm: QsmAlgorithm,
    masking: Option<string>,
    addBet: bool,
    singlePass: bool,
    inhomogeneityCorrection: bool,
    useExistingMasks: bool,
    numEchoes: Option<int>,
    nProcs: Option<int>,
    qsubAccountString: Option<string>)

  /** The options after normalisation, as every run of the pipeline sees them. */
  datatype Options = Options(
    qsmAlgorithm: QsmAlgorithm,
    masking: string,
    addBet: bool,
    twoPass: bool,
    singlePass: bool,
    inhomogeneityCorrection: bool,
    useExistingMasks: bool,
    numEchoes: Option<int>,
    nProcs: int,
    tgvqsmThreads: int,
    qsubAccountString: Option<string>)

  /** Python truthiness of an optional integer: `None` and `0` are false. */
  predicate TruthyInt(o: Option<int>) {
    o.Some? && o.value != 0
  }

  /** The number of threads the TGV-QSM inversion may use per job. */
  const MaxTgvqsmThreads := 6

  function Min(a: int, b: int): int {
    if a <= b then a else b
  }

  /** The maskings the command line admits for `--masking`. */
  const MaskingChoices := ["phase-based", "magnitude-based", "bet", "bet-firstecho"]

  /** The masking each algorithm falls back on when none is chosen. */
  function DefaultMasking(algorithm: QsmAlgorithm): string {
    match algorithm
    case TgvQsm => "phase-based"
    case NextQsm => "bet-firstecho"
  }

  /** An explicit masking choice, or else the algorithm's default. */
  function ChosenMasking(args: CliArgs): (m: string)
    ensures m != ""
    ensures Truthy(args.masking) ==> m == args.masking.value
    ensures !Truthy(args.masking) ==> m == DefaultMasking(args.qsmAlgorithm)
  {
    if Truthy(args.masking) then args.masking.value else DefaultMasking(args.qsmAlgorithm)
  }

  /** The relations every normalised option set satisfies, and that the
      per-run adjustments keep. */
  predicate Consistent(o: Options) {
    && o.singlePass == !o.twoPass
    && (o.twoPass ==> !Contains(o.masking, "bet"))
    && (o.addBet ==> !Contains(o.masking, "bet"))
    && (o.inhomogeneityCorrection ==> o.addBet || !Contains(o.masking, "phase-based"))
    && o.tgvqsmThreads <= MaxTgvqsmThreads
  }

  /** Normalises the parsed options. `cpuCount` stands for the CPU count the
      environment reports (`NCPUS`, or the operating system's count). */
  function ProcessArgs(args: CliArgs, cpuCount: int): (o: Options)
    // masking: an explicit choice is kept, otherwise the algorithm's default
    ensures Truthy(args.masking) ==> o.masking == args.masking.value
    ensures !Truthy(args.masking) ==> o.masking == DefaultMasking(args.qsmAlgorithm)
    ensures o.masking != ""
    // the BET add-on is only ever cleared, and always when masking is BET-based
    ensures o.addBet ==> args.addBet
    ensures Contains(o.masking, "bet") ==> !o.addBet
    ensures args.addBet && !Contains(o.masking, "bet") ==> o.addBet
    // two-pass unless BET masking or a single pass was asked for
    ensures o.twoPass <==> !Contains(o.masking, "bet") && !args.singlePass
    ensures o.singlePass == !o.twoPass
    // inhomogeneity correction survives only where magnitude masking can use it
    ensures o.inhomogeneityCorrection <==>
              args.inhomogeneityCorrection && (o.addBet || !Contains(o.masking, "phase-based"))
    // process and thread counts
    ensures TruthyInt(args.nProcs) ==> o.nProcs == args.nProcs.value
    ensures !TruthyInt(args.nProcs) ==> o.nProcs == cpuCount
    ensures Truthy(args.qsubAccountString) ==> o.tgvqsmThreads == MaxTgvqsmThreads
    ensures !Truthy(args.qsubAccountString) ==>
              o.tgvqsmThreads <= MaxTgvqsmThreads && o.tgvqsmThreads <= o.nProcs
              && (o.tgvqsmThreads == MaxTgvqsmThreads || o.tgvqsmThreads == o.nProcs)
    // everything else passes through
    ensures o.qsmAlgorithm == args.qsmAlgorithm && o.useExistingMasks == args.useExistingMasks
    ensures o.numEchoes == args.numEchoes && o.qsubAccountString == args.qsubAccountString
    ensures Consistent(o)
  {
    var masking := ChosenMasking(args);
    var addBet := args.addBet && !Contains(masking, "bet");
    var twoPass := !Contains(masking, "bet") && !args.singlePass;
    var inhomogeneityCorrection :=
      args.inhomogeneityCorrection && (addBet || !Contains(masking, "phase-based"));
    var nProcs := if TruthyInt(args.nProcs) then args.nProcs.value else cpuCount;
    var threads := if Truthy(args.qsubAccountString) then MaxTgvqsmThreads else Min(MaxTgvqsmThreads, nProcs);
    Options(args.qsmAlgorithm, masking, addBet, twoPass, !twoPass, inhomogeneityCorrection,
            args.useExistingMasks, args.numEchoes, nProcs, threads, args.qsubAccountString)
  }

  /** The command line that would reproduce a normalised option set. */
  function Resubmit(o: Options): CliArgs {
    CliArgs(o.qsmAlgorithm, Some(o.masking), o.addBet, o.singlePass, o.inhomogeneityCorrection,
            o.useExistingMasks, o.numEchoes, Some(o.nProcs), o.qsubAccountString)
  }

  /** Normalisation is idempotent: normalising already-normalised options
      changes nothing. */
  lemma ProcessArgsIdempotent(args: CliArgs, cpuCount: int)
    ensures ProcessArgs(Resubmit(ProcessArgs(args, cpuCount)), cpuCount) == ProcessArgs(args, cpuCount)
  {
  }

  /** The command line as parsed with no flags but the algorithm. */
  function Defaults(algorithm: QsmAlgorithm): CliArgs {
    CliArgs(algorithm, None, false, false, false, false, None, None, None)
  }

  /** With no flags, TGV-QSM runs two-pass with phase-based masking and
      neither the BET add-on nor inhomogeneity correction. */
  lemma TgvQsmDefaults(cpuCount: int)
    ensures var o := ProcessArgs(Defaults(TgvQsm), cpuCount);
      && o.masking == "phase-based" && o.twoPass && !o.singlePass
      && !o.inhomogeneityCorrection && !o.addBet && !o.useExistingMasks
      && o.nProcs == cpuCount
  {
    NoBet();
  }

  /** With no flags, NeXtQSM masks with BET on the first echo, so it runs
      single-pass. */
  lemma NextQsmDefaults(cpuCount: int)
    ensures var o := ProcessArgs(Defaults(NextQsm), cpuCount);
      && o.masking == "bet-firstecho" && !o.twoPass && o.singlePass
      && !o.inhomogeneityCorrection && !o.addBet && !o.useExistingMasks
  {
    assert OccursAt("bet-firstecho", "bet", 0);
  }

  /** Inhomogeneity correction asked for with BET masking is kept, and the
      run becomes single-pass. */
  lemma InhomogeneityCorrectionWithBet(cpuCount: int)
    ensures var o := ProcessArgs(Defaults(TgvQsm).(inhomogeneityCorrection := true, masking := Some("bet")), cpuCount);
      && o.masking == "bet" && !o.twoPass && o.singlePass && o.inhomogeneityCorrection && !o.addBet
      && !o.useExistingMasks
  {
    assert OccursAt("bet", "bet", 0);
    assert !Contains("bet", "phase-based");
  }

  /** Inhomogeneity correction asked for with the default phase-based masking
      is dropped. */
  lemma InhomogeneityCorrectionWithPhaseMasking(cpuCount: int)
    ensures var o := ProcessArgs(Defaults(TgvQsm).(inhomogeneityCorrection := true), cpuCount);
      && o.masking == "phase-based" && o.twoPass && !o.singlePass && !o.inhomogeneityCorrection
      && !o.addBet && !o.useExistingMasks
  {
    NoBet();
    assert OccursAt("phase-based", "phase-based", 0);
  }

  /** Asking for a single pass turns off the two-pass inversion, whatever
      the masking. */
  lemma SinglePassRequested(cpuCount: int)
    ensures var o := ProcessArgs(Defaults(TgvQsm).(singlePass := true), cpuCount);
      && o.masking == "phase-based" && !o.twoPass && o.singlePass && !o.addBet
      && !o.inhomogeneityCorrection && !o.useExistingMasks
  {
  }

  /** Inhomogeneity correction asked for with magnitude-based masking is
      kept, and the run stays two-pass. */
  lemma InhomogeneityCorrectionWithMagnitudeMasking(cpuCount: int)
    ensures var o := ProcessArgs(Defaults(TgvQsm).(inhomogeneityCorrection := true, masking := Some("magnitude-based")), cpuCount);
      && o.masking == "magnitude-based" && o.twoPass && !o.singlePass && o.inhomogeneityCorrection && !o.addBet
      && !o.useExistingMasks
  {
    var s := "magnitude-based";
    forall k | 0 <= k <= |s| - 3
      ensures !OccursAt(s, "bet", k)
    {
      assert s[k..k + 3][0] == s[k] && s[k..k + 3][1] == s[k + 1];
    }
    forall k | 0 <= k <= |s| - 11
      ensures !OccursAt(s, "phase-based", k)
    {
      assert s[k..k + 11][0] == s[k];
    }
  }

  /** The BET add-on is kept with phase-based masking and dropped with BET
      masking. */
  lemma AddBetRules(cpuCount: int)
    ensures var o := ProcessArgs(Defaults(TgvQsm).(addBet := true), cpuCount);
      && o.masking == "phase-based" && o.twoPass && !o.singlePass && !o.inhomogeneityCorrection
      && o.addBet && !o.useExistingMasks
    ensures var o := ProcessArgs(Defaults(TgvQsm).(addBet := true, masking := Some("bet")), cpuCount);
      && o.masking == "bet" && !o.twoPass && o.singlePass && !o.inhomogeneityCorrection
      && !o.addBet && !o.useExistingMasks
  {
    NoBet();
    assert OccursAt("bet", "bet", 0);
  }

  /** The default TGV-QSM masking does not count as BET masking. */
  lemma NoBet()
    ensures !Contains("phase-based", "bet")
  {
    var s := "phase-based";
    forall k | 0 <= k <= |s| - 3
      ensures !OccursAt(s, "bet", k)
    {
      assert s[k..k + 3][0] == s[k] && s[k..k + 3][1] == s[k + 1];
    }
  }

  datatype RangeError = OutsideUnitInterval(got: real)

  /** The `--masking_threshold` validator: accepts values in [0, 1] and
      raises on anything else. */
  function BetweenZeroAndOne(x: real): (r: Result<real, RangeError>)
    ensures r.Success? <==> 0.0 <= x <= 1.0
    ensures r.Success? ==> r.value == x
    ensures r.Failure? ==> r.error == OutsideUnitInterval(x)
  {
    if x < 0.0 || x > 1.0 then Failure(OutsideUnitInterval(x)) else Success(x)
  }
}

=== FILE: run_planning.dfy ===
/** How the pipeline turns a session's phase files into runs, and the rules
    that skip a run or adjust its options according to which files were
    found for it. Globbing and sorting the file lists is file-system work:
    the model receives each list as the sorted glob would return it. */
module RunPlanning {
  import opened Wrappers
  import opened Text
  import opened Ordering
  import opened RunOptions

  /** The run label of a phase file: the label its file name carries. */
  function RunLabel(path: string): (run: string)
    ensures |run| >= 4 && run[..4] == "run-"
  {
    NameLabel(Basename(path))
  }

  /** The run label a file name carries: "run-" followed by the text
      between its first "run-" and the next '_'. Like the Python slice it
      stands for, a missing '_' (`find` giving -1) cuts the last character
      instead. */
  function NameLabel(name: string): (run: string)
    ensures |run| >= 4 && run[..4] == "run-"
  {
    var i := Find(name, "run-", 0);
    var j := Find(name, "_", i + 4);
    "run-" + Slice(name, i + 4, j)
  }

  /** The least index `Find` can return is the first occurrence. */
  lemma FindFirst(s: string, sub: string, start: nat, k: nat)
    requires start <= k && OccursAt(s, sub, k)
    requires forall m :: start <= m < k ==> !OccursAt(s, sub, m)
    ensures Find(s, sub, start) == k
  {
  }

  /** With no occurrence at or after `start`, `Find` gives -1. */
  lemma FindNone(s: string, sub: string, start: nat)
    requires |sub| > 0
    requires forall m :: start <= m < |s| ==> !OccursAt(s, sub, m)
    ensures Find(s, sub, start) == -1
  {
  }

  lemma OccursAtChar(s: string, c: char, k: nat)
    requires k < |s|
    ensures OccursAt(s, [c], k) <==> s[k] == c
  {
    assert s[k..k + 1] == [s[k]];
  }

  /** For a name with a "run-" tag followed by a '_', the label is exactly
      the text in between. */
  lemma {:induction false} NameLabelBetween(name: string, i: nat, j: nat)
    requires OccursAt(name, "run-", i)
    requires forall k :: 0 <= k < i ==> !OccursAt(name, "run-", k)
    requires i + 4 <= j < |name| && name[j] == '_'
    requires '_' !in name[i + 4..j]
    ensures NameLabel(name) == "run-" + name[i + 4..j]
  {
    FindFirst(name, "run-", 0, i);
    OccursAtChar(name, '_', j);
    forall m | i + 4 <= m < j
      ensures !OccursAt(name, "_", m)
    {
      OccursAtChar(name, '_', m);
      assert name[m] == name[i + 4..j][m - (i + 4)];
    }
    FindFirst(name, "_", i + 4, j);
  }

  /** With no '_' after the "run-" tag, the label loses the name's last
      character, as `name[i + 4:-1]` does. */
  lemma {:induction false} NameLabelWithoutUnderscore(name: string, i: nat)
    requires OccursAt(name, "run-", i)
    requires forall k :: 0 <= k < i ==> !OccursAt(name, "run-", k)
    requires i + 4 < |name|
    requires '_' !in name[i + 4..]
    ensures NameLabel(name) == "run-" + name[i + 4..|name| - 1]
  {
    FindFirst(name, "run-", 0, i);
    forall m | i + 4 <= m < |name|
      ensures !OccursAt(name, "_", m)
    {
      OccursAtChar(name, '_', m);
      assert name[m] == name[i + 4..][m - (i + 4)];
    }
    FindNone(name, "_", i + 4);
  }

  /** The run label of every file, in order. */
  function Labels(paths: seq<string>): (labels: seq<string>)
    ensures |labels| == |paths|
    ensures forall k :: 0 <= k < |paths| ==> labels[k] == RunLabel(paths[k])
  {
    seq(|paths|, k requires 0 <= k < |paths| => RunLabel(paths[k]))
  }

  /** Applying `f` to every element keeps the order; its elements are the
      images of the original elements. */
  lemma MapElements(xs: seq<string>, f: string -> string)
    ensures Elements(seq(|xs|, k requires 0 <= k < |xs| => f(xs[k]))) == set x | x in xs :: f(x)
  {
    var ys := seq(|xs|, k requires 0 <= k < |xs| => f(xs[k]));
    forall y | y in Elements(ys)
      ensures y in set x | x in xs :: f(x)
    {
      var k :| 0 <= k < |ys| && ys[k] == y;
      assert xs[k] in xs;
    }
    forall y | y in set x | x in xs :: f(x)
      ensures y in Elements(ys)
    {
      var x :| x in xs && y == f(x);
      var k :| 0 <= k < |xs| && xs[k] == x;
      assert ys[k] == y;
    }
  }

  /** Every phase file of a session carries a "run-" tag. */
  predicate AllTagged(phaseFiles: seq<string>) {
    forall p | p in phaseFiles :: Contains(p, "run-")
  }

  /** The runs of one session: none when no phase file was found or one of
      them has no "run-" tag; otherwise the distinct run labels, sorted. */
  function SessionRuns(phaseFiles: seq<string>): (runs: Option<seq<string>>)
    ensures runs.None? <==> |phaseFiles| == 0 || !AllTagged(phaseFiles)
    ensures runs.Some? ==> StrictlySorted(runs.value)
    ensures runs.Some? ==> Elements(runs.value) == set p | p in phaseFiles :: RunLabel(p)
  {
    if |phaseFiles| == 0 || !AllTagged(phaseFiles) then None
    else
      MapElements(phaseFiles, RunLabel);
      Some(SortedDistinct(Labels(phaseFiles)))
  }

  /** The run list is the only strictly sorted list of the session's
      labels: any other way of sorting the distinct labels agrees with it. */
  lemma SessionRunsCanonical(phaseFiles: seq<string>, runs: seq<string>)
    requires |phaseFiles| > 0 && AllTagged(phaseFiles)
    requires StrictlySorted(runs) && Elements(runs) == set p | p in phaseFiles :: RunLabel(p)
    ensures SessionRuns(phaseFiles) == Some(runs)
  {
    SortedUnique(SessionRuns(phaseFiles).value, runs);
  }

  /** `files[:num_echoes]`: the first echoes, all of them when no count was
      given, and Python's counting from the end for a negative count. */
  function TakeEchoes(files: seq<string>, numEchoes: Option<int>): (r: seq<string>)
    ensures |r| <= |files| && r == files[..|r|]
    ensures numEchoes.None? ==> r == files
    ensures numEchoes.Some? && numEchoes.value >= 0 ==> |r| == Min(numEchoes.value, |files|)
    ensures numEchoes.Some? && numEchoes.value < 0 ==>
              |r| == if |files| + numEchoes.value < 0 then 0 else |files| + numEchoes.value
  {
    match numEchoes
    case None => files
    case Some(n) => Slice(files, 0, n)
  }

  /** The file lists of one run. */
  datatype RunFiles = RunFiles(phase: seq<string>, magnitude: seq<string>, params: seq<string>, masks: seq<string>)

  datatype SkipReason = NoPhaseFiles | UnequalJsonAndPhase

  /** The warnings a run that goes ahead may log. */
  datatype RunWarning = PhaseBasedFallback | NoMasksFound | UnequalMasksAndPhase {
    /** The position of the check that logs this warning. */
    function Rank(): nat {
      match this
      case PhaseBasedFallback => 0
      case NoMasksFound => 1
      case UnequalMasksAndPhase => 2
    }
  }

  /** Warnings in the order the checks run, none twice. */
  predicate InLogOrder(w: seq<RunWarning>) {
    forall i, j :: 0 <= i < j < |w| ==> w[i].Rank() < w[j].Rank()
  }

  /** The warnings of the three checks that fired, in check order. */
  function RunWarnings(fallback: bool, noMasks: bool, drop: bool): (w: seq<RunWarning>)
    ensures PhaseBasedFallback in w <==> fallback
    ensures NoMasksFound in w <==> noMasks
    ensures UnequalMasksAndPhase in w <==> drop
    ensures InLogOrder(w)
  {
    (if fallback then [PhaseBasedFallback] else [])
    + (if noMasks then [NoMasksFound] else [])
    + (if drop then [UnequalMasksAndPhase] else [])
  }

  datatype RunPlan =
    | Skipped(reason: SkipReason)
    | Planned(options: Options, files: RunFiles, maskingHeader: string, warnings: seq<RunWarning>)

  /** The files a run considers: each list cut to the echo count, and masks
      only when existing masks were asked for. */
  function Considered(o: Options, found: RunFiles): (c: RunFiles)
    ensures IsPrefix(c.phase, found.phase) && IsPrefix(c.magnitude, found.magnitude)
    ensures IsPrefix(c.params, found.params) && IsPrefix(c.masks, found.masks)
    ensures !o.useExistingMasks ==> c.masks == []
    ensures o.numEchoes.None? ==>
      c == found.(masks := if o.useExistingMasks then found.masks else [])
    ensures c.phase == TakeEchoes(found.phase, o.numEchoes)
    ensures c.magnitude == TakeEchoes(found.magnitude, o.numEchoes)
    ensures c.params == TakeEchoes(found.params, o.numEchoes)
    ensures c.masks == if o.useExistingMasks then TakeEchoes(found.masks, o.numEchoes) else []
  {
    RunFiles(
      TakeEchoes(found.phase, o.numEchoes),
      TakeEchoes(found.magnitude, o.numEchoes),
      TakeEchoes(found.params, o.numEchoes),
      if o.useExistingMasks then TakeEchoes(found.masks, o.numEchoes) else [])
  }

  /** `xs` is a leading part of `ys`. */
  predicate IsPrefix(xs: seq<string>, ys: seq<string>) {
    |xs| <= |ys| && xs == ys[..|xs|]
  }

  /** With a non-negative echo count (or none), cutting the lists a second
      time keeps them as they are: the run sees the same files however
      often the cut is applied. A negative count cuts again from the end. */
  lemma {:induction false} ConsideredIdempotent(o: Options, found: RunFiles)
    ensures o.numEchoes.None? || o.numEchoes.value >= 0 ==>
      Considered(o, Considered(o, found)) == Considered(o, found)
    ensures o.numEchoes.Some? && o.numEchoes.value < 0 && |found.phase| + 2 * o.numEchoes.value >= 0 ==>
      |Considered(o, Considered(o, found)).phase| == |Considered(o, found).phase| + o.numEchoes.value
  {
    var c := Considered(o, found);
    if o.numEchoes.Some? && o.numEchoes.value >= 0 {
      var n := o.numEchoes.value;
      TakeEchoesTwice(found.phase, n);
      TakeEchoesTwice(found.magnitude, n);
      TakeEchoesTwice(found.params, n);
      TakeEchoesTwice(found.masks, n);
    }
  }

  /** Cutting a list to `n >= 0` entries twice is cutting it once. */
  lemma TakeEchoesTwice(files: seq<string>, n: int)
    requires n >= 0
    ensures TakeEchoes(TakeEchoes(files, Some(n)), Some(n)) == TakeEchoes(files, Some(n))
  {
    var once := TakeEchoes(files, Some(n));
    var twice := TakeEchoes(once, Some(n));
    assert |twice| == |once|;
  }

  /** Whether the options need magnitude images: magnitude-based or BET
      masking, the BET add-on, or inhomogeneity correction. */
  predicate NeedsMagnitude(o: Options) {
    o.masking == "magnitude-based" || Contains(o.masking, "bet") || o.addBet || o.inhomogeneityCorrection
  }

  /** Existing masks are discarded when there are several and their count
      differs from the phase count. */
  predicate DropsMasks(o: Options, c: RunFiles) {
    o.useExistingMasks && |c.masks| > 1 && |c.masks| != |c.phase|
  }

  /** The "Masking algorithm" entry of the run's header: the masking (and
      the BET add-on) unless predefined masks are in use. */
  function MaskingHeader(o: Options, masks: seq<string>): (h: string)
    ensures |masks| == 0 && !o.addBet ==> h == o.masking
    ensures |masks| == 0 && o.addBet ==> h == o.masking + " plus BET"
    ensures |masks| == 1 ==> h == "Predefined (one mask)"
    ensures |masks| > 1 ==> h == "Predefined (multi-echo mask)"
  {
    if |masks| == 0 then o.masking + (if o.addBet then " plus BET" else "")
    else if |masks| == 1 then "Predefined (one mask)"
    else "Predefined (multi-echo mask)"
  }

  /** `p` opens `s`. */
  predicate StartsWith(s: string, p: string) {
    |p| <= |s| && s[..|p|] == p
  }

  /** For a masking the command line admits, the header says "Predefined"
      exactly when masks are in use; otherwise it opens with the masking
      itself. With masks in use it does not depend on the options at all. */
  lemma MaskingHeaderNamesSource(o: Options, other: Options, masks: seq<string>)
    requires o.masking in MaskingChoices
    ensures StartsWith(MaskingHeader(o, masks), "Predefined") <==> |masks| > 0
    ensures |masks| == 0 ==> StartsWith(MaskingHeader(o, masks), o.masking)
    ensures |masks| > 0 ==> MaskingHeader(o, masks) == MaskingHeader(other, masks)
  {
    var h := MaskingHeader(o, masks);
    if |masks| == 0 {
      assert h[..|o.masking|] == o.masking;
      assert h[0] == o.masking[0] != 'P';
    }
  }

  /** Every phase file has a JSON sidecar, and either no phase file has a
      mask or each has one. */
  predicate Aligned(f: RunFiles) {
    && |f.phase| > 0
    && |f.params| == |f.phase|
    && (|f.masks| == 0 || |f.masks| == |f.phase|)
  }

  /** A single mask serves every echo: it is repeated once per phase file.
      Any other list of masks is used as it is. */
  function PerEcho(masks: seq<string>, echoes: nat): (r: seq<string>)
    ensures |masks| == 1 ==> |r| == echoes && forall k :: 0 <= k < |r| ==> r[k] == masks[0]
    ensures |masks| != 1 ==> r == masks
  {
    if |masks| == 1 then seq(echoes, _ => masks[0]) else masks
  }

  /** The per-run rules: skip the run, or go ahead with adjusted options and
      the files it will use. */
  function PlanRun(o: Options, found: RunFiles): (plan: RunPlan)
    // skipping
    ensures var c := Considered(o, found);
      plan.Skipped? <==> |c.phase| == 0 || |c.phase| != |c.params|
    ensures plan == Skipped(NoPhaseFiles) <==> |Considered(o, found).phase| == 0
    // the files a run goes ahead with
    ensures plan.Planned? ==> Aligned(plan.files)
    ensures var c := Considered(o, found);
      plan.Planned? ==> plan.files.phase == c.phase && plan.files.magnitude == c.magnitude
                        && plan.files.params == c.params
    // missing magnitude falls back on phase-based masking
    ensures var c := Considered(o, found);
      plan.Planned? && |c.magnitude| == 0 && NeedsMagnitude(o) ==>
        plan.options.masking == "phase-based" && !plan.options.addBet && !plan.options.inhomogeneityCorrection
        && PhaseBasedFallback in plan.warnings
    ensures var c := Considered(o, found);
      plan.Planned? && !(|c.magnitude| == 0 && NeedsMagnitude(o)) ==>
        plan.options.masking == o.masking && PhaseBasedFallback !in plan.warnings
    // masks
    ensures var c := Considered(o, found);
      plan.Planned? && DropsMasks(o, c) ==> plan.files.masks == []
    ensures var c := Considered(o, found);
      plan.Planned? && |c.masks| == 1 ==> plan.files.masks == seq(|c.phase|, _ => c.masks[0])
    ensures var c := Considered(o, found);
      plan.Planned? && |c.masks| == 0 ==> plan.files.masks == []
    ensures var c := Considered(o, found);
      plan.Planned? && |c.masks| > 1 && !DropsMasks(o, c) ==> plan.files.masks == c.masks
    ensures plan.Planned? && |plan.files.masks| > 0 ==>
      && o.useExistingMasks
      && !plan.options.inhomogeneityCorrection && !plan.options.twoPass
      && plan.options.singlePass && !plan.options.addBet
    ensures plan.Planned? && |plan.files.masks| == 0 ==>
      plan.options.twoPass == o.twoPass && plan.options.singlePass == o.singlePass
    // warnings: each logged exactly when its check fires, in check order
    ensures var c := Considered(o, found);
      plan.Planned? ==> (NoMasksFound in plan.warnings <==> o.useExistingMasks && |c.masks| == 0)
    ensures var c := Considered(o, found);
      plan.Planned? ==> (UnequalMasksAndPhase in plan.warnings <==> DropsMasks(o, c))
    ensures plan.Planned? ==> InLogOrder(plan.warnings)
    // add-on, inhomogeneity correction and two-pass are only ever cleared;
    // single-pass and masking change as stated above; the rest stays
    ensures plan.Planned? ==>
      && (plan.options.addBet ==> o.addBet)
      && (plan.options.inhomogeneityCorrection ==> o.inhomogeneityCorrection)
      && (plan.options.twoPass ==> o.twoPass)
    ensures plan.Planned? ==>
      plan.options == o.(masking := plan.options.masking, addBet := plan.options.addBet,
                         inhomogeneityCorrection := plan.options.inhomogeneityCorrection,
                         twoPass := plan.options.twoPass, singlePass := plan.options.singlePass)
    ensures var c := Considered(o, found);
      plan.Planned? && !(|c.magnitude| == 0 && NeedsMagnitude(o)) && |plan.files.masks| == 0 ==>
        plan.options == o
    ensures plan.Planned? && Consistent(o) ==> Consistent(plan.options)
    ensures var c := Considered(o, found);
      plan.Planned? ==> plan.maskingHeader == MaskingHeader(plan.options, if DropsMasks(o, c) then [] else c.masks)
  {
    var c := Considered(o, found);
    if |c.phase| == 0 then Skipped(NoPhaseFiles)
    else if |c.phase| != |c.params| then Skipped(UnequalJsonAndPhase)
    else
      var fallback := |c.magnitude| == 0 && NeedsMagnitude(o);
      var o1 := if fallback then o.(masking := "phase-based", addBet := false, inhomogeneityCorrection := false) else o;
      var noMasks := o.useExistingMasks && |c.masks| == 0;
      var drop := DropsMasks(o1, c);
      var masks := if drop then [] else c.masks;
      var o2 :=
        if o1.useExistingMasks && |masks| > 0 then
          o1.(inhomogeneityCorrection := false, twoPass := false, singlePass := true, addBet := false)
        else o1;
      var header := MaskingHeader(o2, masks);
      var perEcho := PerEcho(masks, |c.phase|);
      var warnings := RunWarnings(fallback, noMasks, drop);
      PhaseBasedIsConsistent(o);
      Planned(o2, RunFiles(c.phase, c.magnitude, c.params, perEcho), header, warnings)
  }

  /** The fallback to phase-based masking keeps the options consistent. */
  lemma PhaseBasedIsConsistent(o: Options)
    ensures Consistent(o) ==>
      Consistent(o.(masking := "phase-based", addBet := false, inhomogeneityCorrection := false))
  {
    NoBet();
  }

  /** Normalised options stay consistent through every run's adjustments. */
  lemma PlannedOptionsConsistent(args: CliArgs, cpuCount: int, found: RunFiles)
    ensures var plan := PlanRun(ProcessArgs(args, cpuCount), found);
      plan.Planned? ==> Consistent(plan.options)
  {
  }
}

=== FILE: text.dfy ===
/** The handful of Python `str` and sequence operations the pipeline's
    deterministic logic is built from: truthiness, `find`, `in`, slicing,
    `os.path.split`, `split` and `join`. Each carries the contract that
    characterises it, so the rest of the model can reason about names
    without unfolding these definitions. */
module Text {
  import opened Wrappers

  /** Python truthiness of an optional string: `None` and `""` are false. */
  predicate Truthy(o: Option<string>) {
    o.Some? && o.value != ""
  }

  /** `sub` occurs in `s` starting at index `k`. */
  predicate OccursAt(s: string, sub: string, k: int) {
    0 <= k && k + |sub| <= |s| && s[k..k + |sub|] == sub
  }

  /** `s.find(sub, start)` for a non-negative `start`: the least index at or
      after `start` where `sub` occurs, or -1 when there is none. */
  function Find(s: string, sub: string, start: nat): (r: int)
    ensures r == -1 || (start <= r && OccursAt(s, sub, r))
    ensures r == -1 ==> forall k :: start <= k ==> !OccursAt(s, sub, k)
    ensures r >= 0 ==> forall k :: start <= k < r ==> !OccursAt(s, sub, k)
    decreases |s| - start
  {
    if start + |sub| > |s| then -1
    else if s[start..start + |sub|] == sub then start
    else Find(s, sub, start + 1)
  }

  /** `sub in s` on strings: substring containment. */
  predicate Contains(s: string, sub: string) {
    exists k | 0 <= k <= |s| - |sub| :: OccursAt(s, sub, k)
  }

  /** `s.find(sub)` succeeds exactly when `sub in s`. */
  lemma FindAgreesWithContains(s: string, sub: string)
    ensures Find(s, sub, 0) >= 0 <==> Contains(s, sub)
  {
    var r := Find(s, sub, 0);
    if r >= 0 {
      assert OccursAt(s, sub, r);
    }
  }

  /** Python's normalisation of one slice bound against a length `n`:
      negative bounds count from the end, and both ends are clamped. */
  function ClampBound(i: int, n: nat): (r: nat)
    ensures r <= n
    ensures 0 <= i <= n ==> r == i
    ensures -(n as int) <= i < 0 ==> r == n + i
  {
    if i < 0 then (if i + n < 0 then 0 else i + n)
    else if i > n then n
    else i
  }

  /** Python's `s[start:stop]`. */
  function Slice<T>(s: seq<T>, start: int, stop: int): (r: seq<T>)
    ensures |r| <= |s|
    ensures 0 <= start <= stop <= |s| ==> r == s[start..stop]
    ensures 0 <= start && stop < 0 && start <= |s| + stop ==> r == s[start..|s| + stop]
    ensures start == 0 ==> r == s[..|r|]
  {
    var a := ClampBound(start, |s|);
    var b := ClampBound(stop, |s|);
    if a < b then s[a..b] else []
  }

  /** The final component of a POSIX path, as `os.path.split(p)[1]` returns
      it: the longest suffix without a '/'. */
  function Basename(p: string): (name: string)
    ensures '/' !in name
    ensures |name| <= |p| && name == p[|p| - |name|..]
    ensures |name| < |p| ==> p[|p| - |name| - 1] == '/'
  {
    if |p| == 0 then ""
    else if p[|p| - 1] == '/' then ""
    else Basename(p[..|p| - 1]) + [p[|p| - 1]]
  }

  /** Index of the first `c` in `s`. */
  function FirstIndex(s: string, c: char): (i: nat)
    requires c in s
    ensures i < |s| && s[i] == c && c !in s[..i]
  {
    if s[0] == c then 0
    else
      var j := FirstIndex(s[1..], c);
      assert s[1..][..j] == s[1..j + 1];
      assert s[..j + 1] == [s[0]] + s[1..j + 1];
      j + 1
  }

  /** The text before the first `c`, or all of `s` when there is none. */
  function Before(s: string, c: char): (r: string)
    ensures c !in r
    ensures c !in s ==> r == s
    ensures c in s ==> |r| < |s| && r == s[..|r|] && s[|r|] == c
  {
    if c in s then s[..FirstIndex(s, c)] else s
  }

  /** The text after the first `c`, or "" when there is none. */
  function After(s: string, c: char): (r: string)
    ensures c !in s ==> r == ""
    ensures c in s ==> s == Before(s, c) + [c] + r
  {
    if c in s then s[FirstIndex(s, c) + 1..] else ""
  }

  /** `s.split(sep)` for a one-character separator: never empty, a single
      piece exactly when the separator does not occur, and no piece holds
      the separator. */
  function Split(s: string, sep: char): (parts: seq<string>)
    ensures |parts| >= 1
    ensures |parts| == 1 <==> sep !in s
    ensures forall k :: 0 <= k < |parts| ==> sep !in parts[k]
    ensures parts[0] == Before(s, sep)
    decreases |s|
  {
    if sep !in s then [s]
    else [Before(s, sep)] + Split(After(s, sep), sep)
  }

  /** `sep.join(parts)`; `JoinSplit` is what it promises against `Split`. */
  function Join(sep: string, parts: seq<string>): string
  {
    if |parts| == 0 then ""
    else if |parts| == 1 then parts[0]
    else parts[0] + sep + Join(sep, parts[1..])
  }

  /** Joining the pieces of a split with the same separator gives back the
      original string. */
  lemma {:induction false} JoinSplit(s: string, sep: char)
    ensures Join([sep], Split(s, sep)) == s
    decreases |s|
  {
    if sep in s {
      var rest := After(s, sep);
      JoinSplit(rest, sep);
      var parts := Split(s, sep);
      assert parts == [Before(s, sep)] + Split(rest, sep);
      assert parts[1..] == Split(rest, sep);
    }
  }

  /** `sep.join(s.split(sep)[1:])` is the text after the first separator. */
  lemma JoinSplitTail(s: string, sep: char)
    ensures Join([sep], Split(s, sep)[1..]) == After(s, sep)
  {
    if sep in s {
      var parts := Split(s, sep);
      assert parts[1..] == Split(After(s, sep), sep);
      JoinSplit(After(s, sep), sep);
    }
  }

  /** Prefixing text that has no `c` does not move the first `c`. */
  lemma {:induction false} AfterSkipsPrefix(d: string, n: string, c: char)
    requires c !in d
    ensures After(d + n, c) == After(n, c)
    ensures Before(d + n, c) == d + Before(n, c)
  {
    var s := d + n;
    if c in n {
      assert n == Before(n, c) + [c] + After(n, c);
      assert s == (d + Before(n, c)) + [c] + After(n, c);
      var i := FirstIndex(s, c);
      var k := |d| + |Before(n, c)|;
      assert s[k] == c;
      assert c !in s[..k] by {
        assert s[..k] == d + Before(n, c);
      }
      assert i == k;
    } else {
      assert c !in s by {
        forall k | 0 <= k < |s|
          ensures s[k] != c
        {
          if k < |d| {
            assert s[k] == d[k];
          } else {
            assert s[k] == n[k - |d|];
          }
        }
      }
    }
  }
}

=== FILE: wrappers.dfy ===
/** Optional values and failure-carrying results, used wherever the modelled
    Python code returns None or raises. */
module Wrappers {

  /** Python's `None` or a present value. */
  datatype Option<+T> = None | Some(value: T)

  /** The value a computation returns, or the exception it raises. */
  datatype Result<+T, +E> = Success(value: T) | Failure(error: E) {

    predicate IsFailure() {
      Failure?
    }

    function PropagateFailure<U>(): Result<U, E>
      requires Failure?
    {
      Failure(error)
    }

    function Extract(): T
      requires Success?
    {
      value
    }
  }
}
